=== FILE: README.md ===
# nosleep, modelled in Dafny

nosleep keeps a computer awake. One small controller per platform prevents idle display
sleep (`PreventUserIdleDisplaySleep`) or idle system sleep (`PreventUserIdleSystemSleep`),
and releases that prevention again. Every platform facility is a foreign call. Around those
calls sits bookkeeping over opaque tokens, and that bookkeeping is what this project models
and proves things about.

- `types.dfy` (module `Types`) holds what the backends share:
  - the kind of sleep to prevent, `NoSleepType`;
  - the cross-platform error `NoSleepError::PreventSleep { reason }`;
  - `Option` and `Result`;
  - the integer widths `u16`, `u32` and `i32`.
- `nix.dfy` (module `Nix`) is the Linux backend. It works over the D-Bus session bus.
  - It first asks `org.gnome.SessionManager` for an inhibition, with flags that depend on
    the kind.
  - If GNOME does not hand out a cookie, it falls back to the freedesktop interfaces:
    `org.freedesktop.ScreenSaver` and then `org.freedesktop.PowerManagement` for display
    sleep, and PowerManagement alone for system sleep.
  - Each cookie is tagged with the API that issued it, so its release goes back to that
    service.
  - Stopping releases the stored cookies in order and gives up at the first failed call.
- `mac.dfy` (module `Mac`) is the macOS backend. It is a state machine over one optional
  IOKit assertion id.
  - `prevent_*` first stops, then starts a named assertion.
  - It stores the id only when the return code is zero. Any other code becomes an error
    whose reason is the code written in decimal.
- `windows.dfy` (module `Windows`) is the Windows backend.
  - `start` stops any stored handle. It then creates and sets a mandatory system-required
    power request, and for display sleep a best-effort display-required request.
  - `NoSleepHandle::stop` clears the system request first, then the display request,
    returning at the first failure.
  - Each request is created with the reason "Power Save Blocker". `into_pwstr` turns that
    reason into a NUL-terminated UTF-16 string. Its UTF-16 encoding follows section 2.1 of
    RFC 2781 and is modelled with a decoder as its inverse.
  - `create_power_request` keeps only the pointer into that encoded buffer
    (`nosleep-windows/src/lib.rs:105`). The buffer itself is dropped at the end of that
    statement (:107), before `PowerCreateRequest` reads the pointer (:109). The model logs
    the reason string and does not model the pointer.

Each OS facility is an oracle object.
- The i-th foreign call made through it gets the answer `answer(i)`, taken from a function
  fixed when the object is built.
- The object logs every call it receives.
- A ghost multiset records the locks the OS holds: D-Bus cookies, IOKit assertion ids, or
  active power requests.

The Linux and Windows controllers are classes whose methods are proved equal to pure
functions over a value `Trace` (the call log plus the held locks). The properties are lemmas
about those functions. The macOS controller is proved directly: its invariant `Valid()` says
that the OS holds exactly the stored assertion on its behalf.

Two source functions do not compile as written. The model follows their evident intent:
- `nosleep-nix/src/lib.rs:96-99` returns a `NoSleepHandle` from a function typed
  `Result<()>`. The model stores that handle, as lines 110-113 do.
- `nosleep-nix/src/lib.rs:118-126` iterates `self.cookies`, which `NoSleep` does not have.
  The model iterates the stored handle's cookies, as `NoSleepHandle::stop` does. Like the
  source, it takes the controller read-only and never clears the stored handle.

In the Windows backend, `start` (`nosleep-windows/src/lib.rs:131-149`) calls a
`NoSleep::stop` that does not exist, and assigns a field through `&self`. The model runs
`NoSleepHandle::stop` on the stored handle, if there is one, and then assigns the field.

## Model

| member | source | states |
|---|---|---|
| Types.Result.ToOption | nosleep-windows/src/lib.rs:140 | `.ok()` gives Some exactly for Ok, carrying its value, and None for any error |
| Nix.GnomeFlags | nosleep-nix/src/lib.rs:147-155 | the GNOME flags always include "inhibit suspend" (4), include "inhibit idle" (8) iff the kind is display sleep, include no other bit, and equal 12 for display and 4 for system sleep |
| Nix.InhibitMsgTargets | nosleep-nix/src/lib.rs:139-187 | every Inhibit call has member "Inhibit"; two APIs share a destination, or an object path, only if they are the same API; GNOME's arguments are (app id, xid 0, reason, flags) and the freedesktop APIs' are (app id, reason) |
| Nix.UninhibitTargetsIssuer | nosleep-nix/src/lib.rs:189-216 | a release goes to the issuing API's destination and path with the cookie as its only argument; its interface matches the Inhibit call's for every API except PowerManagement, whose release names "org.freedesktop.PowerManagment.Inhibit"; its member is "Uninhibit" for GNOME and "UnInhibit" otherwise |
| Nix.InhibitMsg | nosleep-nix/src/lib.rs:139-187 | definition of `inhibit_msg`; its properties are in InhibitMsgTargets and UninhibitTargetsIssuer |
| Nix.UninhibitMsg | nosleep-nix/src/lib.rs:189-216 | definition of `uninhibit_msg`; its properties are in UninhibitTargetsIssuer |
| Nix.InhibitSpec | nosleep-nix/src/lib.rs:128-136 | one Inhibit call is logged; a transport error gives `DBus`; a reply without a u32 gives `InvalidResponse`; otherwise the cookie is that u32 tagged with exactly the API called, and the session then holds it in addition to what it held, and nothing changes on an error |
| Nix.NoSleep.Inhibit | nosleep-nix/src/lib.rs:128-136 | the method's result and the connection's new state are those InhibitSpec gives |
| Nix.Connection.SendWithReplyAndBlock | nosleep-nix/src/lib.rs:130-133 | the reply is the bus's answer for the call's position; the call is logged and the held cookies change as the reply dictates |
| Nix.ReleaseSpec | nosleep-nix/src/lib.rs:57-65 | definition of the release loop; its properties are in ReleaseResult, ReleaseSent, ReleaseHeld and ReleaseInOrder |
| Nix.ReleaseResult | nosleep-nix/src/lib.rs:57-65 | releasing succeeds iff the bus answers every uninhibit, and otherwise fails with the transport error of the first unanswered one |
| Nix.ReleaseSent | nosleep-nix/src/lib.rs:57-65 | releasing sends one uninhibit per cookie, in stored order, up to and including the first unanswered one, and no further call |
| Nix.ReleaseHeld | nosleep-nix/src/lib.rs:57-65 | after releasing, the session holds exactly the cookies released before the first failure fewer |
| Nix.ReleaseInOrder | nosleep-nix/src/lib.rs:57-65 | the three properties above together: the result, the calls sent in order with early exit, and the cookies still held |
| Nix.StopHandle | nosleep-nix/src/lib.rs:57-65 | the loop's result and the connection's new state are those of ReleaseSpec on the handle's cookies |
| Nix.NoSleep.Stop | nosleep-nix/src/lib.rs:118-126 | releases the stored handle's cookies exactly as ReleaseSpec does, and leaves the stored handle in place |
| Nix.FallbackApis | nosleep-nix/src/lib.rs:102-109 | the fallback never uses GNOME, always ends with PowerManagement, and uses ScreenSaver iff the kind is display sleep |
| Nix.PushPower | nosleep-nix/src/lib.rs:107-109 | definition of the PowerManagement step of the fallback; its properties are in FallbackSends and FallbackHolds |
| Nix.FallbackSpec | nosleep-nix/src/lib.rs:101-113 | definition of the freedesktop fallback; its properties are in FallbackResult, FallbackSends, FallbackHolds and StartLeaksScreenSaverCookie |
| Nix.FallbackSends | nosleep-nix/src/lib.rs:101-109 | the fallback sends the Inhibit calls of a non-empty prefix of the fallback APIs, in order, and all of them when it succeeds |
| Nix.FallbackHolds | nosleep-nix/src/lib.rs:102-113 | a successful fallback yields one cookie per fallback API, tagged with that API, in fallback order, and adds exactly those to the session; a failed one adds at most the ScreenSaver cookie and releases nothing |
| Nix.InhibitByReply | nosleep-nix/src/lib.rs:128-136 | an Inhibit call yields the cookie exactly when its reply is answered with a u32, and otherwise the error the reply calls for (`DBus` with the transport reason, else `InvalidResponse`) |
| Nix.FirstMiss | nosleep-nix/src/lib.rs:101-109 | the position of the first fallback Inhibit that yields no cookie, or the end of the fallback when every one does |
| Nix.DisplayFallbackCases | nosleep-nix/src/lib.rs:101-113 | for display sleep the fallback has exactly three outcomes: ScreenSaver fails (its error, one call), ScreenSaver succeeds and PowerManagement fails (the latter's error, two calls), or both succeed (both cookies in that order) |
| Nix.FallbackResult | nosleep-nix/src/lib.rs:101-113 | (FallbackFollowsReplies) the fallback succeeds iff every one of its Inhibit calls yields a cookie, and then returns exactly the cookies those replies carry, tagged with their APIs in fallback order; otherwise it returns the error of the first Inhibit that yields none and sends no call after it |
| Nix.StartSpec | nosleep-nix/src/lib.rs:90-115 | definition of `start`; its properties are in StartAbortsOnStopFailure, StartTriesGnomeFirst, StartFallsBack, StartStoresWhatItHolds and StartLeaksScreenSaverCookie |
| Nix.StartAbortsOnStopFailure | nosleep-nix/src/lib.rs:90-92 | when releasing the previous handle fails, start returns that first error, keeps the handle, and sends only the uninhibits up to the failure and no Inhibit call |
| Nix.StartTriesGnomeFirst | nosleep-nix/src/lib.rs:94-100 | after the release, the first call is the GNOME Inhibit; when it yields a cookie, start succeeds, stores exactly that one GNOME cookie and makes no freedesktop call; otherwise the Inhibit calls of a non-empty prefix of the fallback APIs follow it, in order |
| Nix.StartStoresWhatItHolds | nosleep-nix/src/lib.rs:94-113 | a successful start stores either one GNOME cookie or the fallback APIs' cookies in fallback order, and the session holds all of them on top of what it held after the release; a failed start keeps the previous handle |
| Nix.StartDefersToFallback | nosleep-nix/src/lib.rs:94-113 | when the release succeeds and GNOME yields no cookie, the start's result, handle and calls are taken from the fallback alone |
| Nix.StartFallsBack | nosleep-nix/src/lib.rs:94-113 | when GNOME yields no cookie, start succeeds iff every fallback Inhibit yields a cookie, and then stores exactly the cookies those replies carry, in fallback order; otherwise it returns the first failing Inhibit's error, keeps the previous handle and sends nothing after that Inhibit |
| Nix.StartLeaksScreenSaverCookie | nosleep-nix/src/lib.rs:103-110 | when GNOME fails, ScreenSaver grants a cookie and PowerManagement fails, start returns PowerManagement's error, keeps the previous handle, sends no uninhibit, and the session is left holding the ScreenSaver cookie |
| Nix.NoSleep.constructor | nosleep-nix/src/lib.rs:79-84 | a new controller stores no handle |
| Nix.NoSleep.Start | nosleep-nix/src/lib.rs:90-115 | the method's result, the stored handle and the connection's new state are those StartSpec gives |
| Mac.AssertionName | nosleep-mac-sys/src/lib.rs:41-60 | display sleep uses the assertion "PreventUserIdleDisplaySleep" and system sleep "PreventUserIdleSystemSleep" |
| Mac.AssertionNamesDiffer | nosleep-mac-sys/src/lib.rs:41-60 | two kinds get the same assertion name iff they are the same kind |
| Mac.DecimalString | nosleep-mac-sys/src/lib.rs:45-49 | the rendered code is non-empty, starts with '-' iff the code is negative, and is "0" iff the code is zero |
| Mac.DecimalRoundTrip | nosleep-mac-sys/src/lib.rs:45-49 | reading the rendered code back as a signed decimal gives the code |
| Mac.DecimalStringInjective | nosleep-mac-sys/src/lib.rs:64-68 | two return codes give the same error reason iff they are equal |
| Mac.Iokit.Start | nosleep-mac-sys/src/lib.rs:38-44 | the code and the id written through the out-pointer are the OS's answer for this call; the call is logged; the OS holds the id in addition iff the code is zero |
| Mac.Iokit.Stop | nosleep-mac-sys/src/lib.rs:75-77 | the stop is logged and the OS no longer holds that id |
| Mac.NoSleep.constructor | nosleep-mac-sys/src/lib.rs:29-33 | a new controller holds no assertion id, and the OS holds nothing on its behalf |
| Mac.NoSleep.Stop | nosleep-mac-sys/src/lib.rs:73-81 | stop returns Ok, calls the foreign stop exactly once with the stored id when there is one and not at all otherwise, clears the id, and the OS then holds nothing on the controller's behalf |
| Mac.NoSleep.Prevent | nosleep-mac-sys/src/lib.rs:35-52 | after stopping any stored id, starts the named assertion; a zero code stores exactly the id written by the OS and returns Ok; any other code returns `PreventSleep` with the code in decimal and leaves no id stored; the OS holds at most the stored id |
| Mac.NoSleep.PreventDisplaySleep | nosleep-mac-sys/src/lib.rs:35-52 | as Prevent, with the assertion "PreventUserIdleDisplaySleep" |
| Mac.NoSleep.PreventSystemSleep | nosleep-mac-sys/src/lib.rs:54-71 | as Prevent, with the assertion "PreventUserIdleSystemSleep" |
| Mac.PreventThenStop | nosleep-mac-sys/src/lib.rs:96-101 | on a fresh controller whose start is granted, preventing display sleep and then stopping both return Ok, make exactly one start and one stop of the granted id, and leave the OS holding what it held before |
| Windows.Utf16Units | nosleep-windows/src/lib.rs:48 | a character below U+10000 is one code unit equal to its code point and not a surrogate; any other character is a high surrogate followed by a low surrogate |
| Windows.EncodeUtf16 | nosleep-windows/src/lib.rs:48 | definition of `encode_utf16`; its properties are in Utf16RoundTrip, EncodeLength, BmpEncoding and EncodeHasNoZero |
| Windows.Utf16RoundTrip | nosleep-windows/src/lib.rs:48 | decoding the UTF-16 encoding of any string gives the string back |
| Windows.EncodeLength | nosleep-windows/src/lib.rs:48 | the encoding has one code unit per character plus one per character above U+FFFF |
| Windows.BmpEncoding | nosleep-windows/src/lib.rs:48 | a string with no character above U+FFFF encodes to its code points, one unit each |
| Windows.EncodeHasNoZero | nosleep-windows/src/lib.rs:48 | a string without NUL characters encodes to no zero code unit |
| Windows.IntoPwstr | nosleep-windows/src/lib.rs:46-59 | the wide string is the UTF-16 code units followed by a 0, so its length is the UTF-16 unit count plus one |
| Windows.PwstrRoundTrip | nosleep-windows/src/lib.rs:46-59 | for a string without NUL characters, reading the wide string up to its first 0 and decoding it gives the string back, so the terminator is the only 0 |
| Windows.CreateSpec | nosleep-windows/src/lib.rs:100-118 | a refused create gives `CouldNotCreatePowerRequest` with its error code and makes no further call; otherwise the type is set on the new request; Ok with its handle iff the set is granted, and the OS then keeps it active; a refused set gives `PreventPowerSaveMode` with the type, and the created request is not released |
| Windows.CreatePowerRequest | nosleep-windows/src/lib.rs:100-118 | the method's result and the new state are those CreateSpec gives |
| Windows.ClearDisplaySpec | nosleep-windows/src/lib.rs:80-91 | an absent display request counts as cleared with no call; otherwise one clear is made, and its refusal gives `ClearPowerSaveMode` with DisplayRequired and leaves the request active |
| Windows.StopHandleSpec | nosleep-windows/src/lib.rs:72-92 | the system request is cleared first; its refusal returns `ClearPowerSaveMode` with SystemRequired and makes no display call; otherwise the outcome is the display clear's, after the system request is removed |
| Windows.StopHandle | nosleep-windows/src/lib.rs:72-92 | the method's result and the new state are those StopHandleSpec gives |
| Windows.StopUndoesStart | nosleep-windows/src/lib.rs:72-92 | when every clear is granted, stopping a handle succeeds and removes exactly the requests it names |
| Windows.ReleaseStored | nosleep-windows/src/lib.rs:133 | with no stored handle the preliminary stop succeeds and makes no call |
| Windows.StartSpec | nosleep-windows/src/lib.rs:131-149 | definition of `start`; its properties are in StartStopsFirst, StartSystemFirst, StartDisplayBestEffort and StartHoldsStoredRequests |
| Windows.StartStopsFirst | nosleep-windows/src/lib.rs:131-133 | with nothing stored, start goes straight to acquiring; with a stored handle it clears the system request first, and a refused clear aborts the start with `ClearPowerSaveMode` of SystemRequired, keeps the handle and sends no create; a refused clear of a present display request aborts it the same way with DisplayRequired after both clear calls; when every clear is granted, acquiring starts with the handle's requests removed |
| Windows.StopHandleSteps | nosleep-windows/src/lib.rs:72-92 | stop over the OS's answers: a refused system clear gives SystemRequired's error after one call; a refused display clear gives DisplayRequired's error after both calls, with only the system request removed; when every present clear is granted, stop succeeds with exactly the handle's requests removed |
| Windows.AcquireSpec | nosleep-windows/src/lib.rs:138-147 | definition of what `start` does after its stop; its properties are in StartSystemFirst, StartDisplayBestEffort and StartHoldsStoredRequests |
| Windows.StartSystemFirst | nosleep-windows/src/lib.rs:138 | after the stop, the first call creates the system request; if that request cannot be created and set, start returns its error, keeps the stored handle and makes no further call |
| Windows.StartDisplayBestEffort | nosleep-windows/src/lib.rs:139-143 | once the system request is set, start succeeds; for system sleep it stores no display request and makes no further call; for display sleep it makes exactly one more Create, followed by a Set on the created handle only when that Create is granted, and no other call, and it stores a display request iff its create and set are both granted, with the created handle |
| Windows.StartHoldsStoredRequests | nosleep-windows/src/lib.rs:138-147 | a successful start stores a handle whose display part is absent for system sleep, and the OS then keeps active exactly the requests it names on top of what was active before; a failed start keeps the stored handle |
| Windows.DisplayStartHolds | nosleep-windows/src/lib.rs:139-147 | for display sleep, once the system request is set, the OS keeps active exactly the requests of the stored handle on top of what was active before |
| Windows.PowerApi.PowerCreateRequest | nosleep-windows/src/lib.rs:109 | the answer is the OS's for this call's position, and the call is logged with the reason string |
| Windows.PowerApi.PowerSetRequest | nosleep-windows/src/lib.rs:110 | succeeds iff the OS grants it, and then the request type is active on the handle |
| Windows.PowerApi.PowerClearRequest | nosleep-windows/src/lib.rs:74 | succeeds iff the OS grants it, and then the request type is no longer active on the handle |
| Windows.NoSleep.constructor | nosleep-windows/src/lib.rs:121-125 | a new controller stores no handle |
| Windows.NoSleep.Start | nosleep-windows/src/lib.rs:131-149 | the method's result, the stored handle and the new state are those StartSpec gives |

## Left out

- D-Bus transport: `Connection::new_session`, message serialisation and the 5000 ms timeouts
  are not modelled. A failed or timed-out call is a `Failed` reply from the oracle, and its
  error is kept as a reason string.
- The bus, IOKit and the Win32 power API answer according to a fixed function of the call's
  position in the log. Their real behaviour, for instance whether a service refuses a second
  release of the same cookie, is not modelled.
- The Objective-C/IOKit foreign functions (`nosleep-mac-sys/objc/nosleep.h`,
  `sys::start`/`sys::stop`) are not modelled beyond their return code and out-parameter.
  `NSString` conversion is not modelled either.
- Win32 `HANDLE`s are natural numbers. The `REASON_CONTEXT` layout and the raw `PWSTR`
  pointer are not modelled.
- `CloseHandle` is never called in the source, so a created request object is never freed.
  The model has no notion of request objects beyond the logged calls.
- Windows.PowerApi.PowerCreateRequest: logs the reason as the Dafny string. The model assumes
  the OS reads `IntoPwstr(Reason)`, whose content and read-back are proved by IntoPwstr and
  PwstrRoundTrip. The source instead passes a pointer into a buffer that is freed at
  `nosleep-windows/src/lib.rs:107`, before `PowerCreateRequest` reads it at :109. What the OS
  actually reads there is not modelled.
- Windows.CreateSpec: `CouldNotCreatePowerRequest` carries the failing call's i32 error code
  in place of a `windows::core::Error`.
- Nix.FallbackHolds: on failure it states only that at most the ScreenSaver cookie is added. Which error is returned and which calls were sent is stated by FallbackResult.
  The exact leaked cookie is stated by Nix.StartLeaksScreenSaverCookie for the case where
  ScreenSaver grants it and PowerManagement fails.
- snafu backtraces and context wrapping are not modelled. Errors carry only their variant and
  its data.
- `Drop`/teardown auto-release and threading are not modelled. The source has no
  concurrency.
- `nosleep-ios/src/lib.rs` is not part of this model. It only toggles a foreign UIApplication
  flag and holds no local state.
- `nosleep-mac-sys/lib.rs`, an older free-function FFI wrapper, is not part of this model.
- `nosleep/src/lib.rs` is not part of this model. It only re-exports the backends.
- `NoSleepTrait` and serde derives from `nosleep-types/src/lib.rs` are not modelled; the model
  reuses only `NoSleepType`.
- The Windows tests call a `NoSleep::stop` that the source does not define. No such operation
  is modelled. The stop inside `start` is `NoSleepHandle::stop` of the stored handle.
- The Windows start does not clear the stored handle after stopping it. When the new system
  request then fails, the stored handle still names requests already cleared. The model keeps
  that behaviour and does not correct it.
- Rollback: the source does not release cookies or requests acquired before a later failure,
  and the model does not add any.

=== FILE: mac.dfy ===
/**
 * The macOS backend: an IOKit power assertion behind a foreign `start`/`stop` pair.
 *
 * The foreign side is an oracle: the i-th foreign call, if it is a start, returns
 * `answer(i)` (a return code and the assertion id written through the out-pointer).
 * A ghost multiset records the assertions the OS holds. The controller is a state
 * machine over one optional assertion id.
 */
module Mac {
  import opened Types

  /** What `sys::start` reports: its return code and the id it wrote through its out-pointer. */
  datatype StartReply = StartReply(code: i32, handle: u32)

  /** A foreign call, as logged: a start with the assertion name, or a stop of an assertion id. */
  datatype SysCall = StartCall(name: string) | StopCall(handle: u32)

  const DisplayAssertion := "PreventUserIdleDisplaySleep"
  const SystemAssertion := "PreventUserIdleSystemSleep"

  /** The IOKit assertion name passed for each kind of inhibition. */
  function AssertionName(kind: NoSleepType): (name: string)
    ensures kind == PreventUserIdleDisplaySleep ==> name == DisplayAssertion
    ensures kind == PreventUserIdleSystemSleep ==> name == SystemAssertion
  {
    match kind
    case PreventUserIdleDisplaySleep => DisplayAssertion
    case PreventUserIdleSystemSleep => SystemAssertion
  }

  /** The two assertion names differ, so the kinds cannot be confused by the OS. */
  lemma AssertionNamesDiffer(a: NoSleepType, b: NoSleepType)
    ensures AssertionName(a) == AssertionName(b) <==> a == b
  {
  }

  // Decimal rendering of a signed 32-bit integer, as Rust's `i32::to_string` writes it.

  function DigitChar(d: nat): (c: char)
    requires d < 10
    ensures '0' <= c <= '9' && c as int - '0' as int == d
  {
    ['0', '1', '2', '3', '4', '5', '6', '7', '8', '9'][d]
  }

  /** The decimal digits of n, most significant first, with no leading zero. */
  function Digits(n: nat): (s: string)
    ensures |s| > 0 && (|s| > 1 ==> s[0] != '0')
    ensures forall i :: 0 <= i < |s| ==> '0' <= s[i] <= '9'
  {
    if n < 10 then [DigitChar(n)] else Digits(n / 10) + [DigitChar(n % 10)]
  }

  /** `to_string` of a return code: a minus sign for negative values, then the digits of the magnitude. */
  function DecimalString(n: i32): (s: string)
    ensures |s| > 0
    ensures s[0] == '-' <==> n < 0
    ensures s == "0" <==> n == 0
  {
    if n < 0 then "-" + Digits(-(n as int)) else Digits(n)
  }

  /** The value of a run of decimal digits. */
  function DigitsValue(s: string): int
  {
    if s == [] then 0 else DigitsValue(s[..|s| - 1]) * 10 + (s[|s| - 1] as int - '0' as int)
  }

  /** Reads back a rendered code: an optional minus sign, then decimal digits. */
  function ParseDecimal(s: string): int
  {
    if |s| > 0 && s[0] == '-' then -DigitsValue(s[1..]) else DigitsValue(s)
  }

  lemma {:induction false} DigitsRoundTrip(n: nat)
    ensures DigitsValue(Digits(n)) == n
  {
    if n >= 10 {
      DigitsRoundTrip(n / 10);
      var s := Digits(n);
      assert s[..|s| - 1] == Digits(n / 10);
    }
  }

  /** The reason of a PreventSleep error determines the return code it came from. */
  lemma DecimalRoundTrip(n: i32)
    ensures ParseDecimal(DecimalString(n)) == n
  {
    if n < 0 {
      DigitsRoundTrip(-(n as int));
      assert ("-" + Digits(-(n as int)))[1..] == Digits(-(n as int));
    } else {
      DigitsRoundTrip(n);
    }
  }

  /** Distinct return codes give distinct error reasons. */
  lemma DecimalStringInjective(a: i32, b: i32)
    ensures DecimalString(a) == DecimalString(b) <==> a == b
  {
    DecimalRoundTrip(a);
    DecimalRoundTrip(b);
  }

  /** The foreign IOKit wrapper: an oracle for `sys::start` and a sink for `sys::stop`. */
  class Iokit {
    const answer: nat -> StartReply
    var calls: seq<SysCall>
    ghost var held: multiset<u32>

    constructor (answer: nat -> StartReply)
      ensures this.answer == answer && calls == [] && held == multiset{}
    {
      this.answer := answer;
      calls := [];
      held := multiset{};
    }

    /** `sys::start(name, &mut handle)`: a zero code means the OS now holds the assertion `handle`. */
    method Start(name: string) returns (code: i32, handle: u32)
      modifies this
      ensures StartReply(code, handle) == answer(|old(calls)|)
      ensures calls == old(calls) + [StartCall(name)]
      ensures held == if code == 0 then old(held) + multiset{handle} else old(held)
    {
      var reply := answer(|calls|);
      code, handle := reply.code, reply.handle;
      calls := calls + [StartCall(name)];
      if code == 0 {
        held := held + multiset{handle};
      }
    }

    /** `sys::stop(handle)`: the OS releases the assertion. */
    method Stop(handle: u32)
      modifies this
      ensures calls == old(calls) + [StopCall(handle)]
      ensures held == old(held) - multiset{handle}
    {
      calls := calls + [StopCall(handle)];
      held := held - multiset{handle};
    }
  }

  /** The assertions a controller with this stored handle accounts for. */
  function HeldBy(handle: Option<u32>): (m: multiset<u32>)
    ensures |m| <= 1
    ensures handle.Some? ==> handle.value in m
  {
    if handle.Some? then multiset{handle.value} else multiset{}
  }

  /** The foreign calls `stop` makes for a stored handle: one stop of it, or none. */
  function StopCalls(handle: Option<u32>): (calls: seq<SysCall>)
    ensures |calls| <= 1
    ensures handle.None? <==> calls == []
  {
    if handle.Some? then [StopCall(handle.value)] else []
  }

  /** The macOS controller. */
  class NoSleep {
    const sys: Iokit
    var handle: Option<u32>
    /** What the OS held on behalf of others when this controller was created. */
    ghost const others: multiset<u32>

    /** The OS holds exactly the stored assertion on this controller's behalf, and no other. */
    ghost predicate Valid()
      reads this, sys
    {
      sys.held == others + HeldBy(handle)
    }

    /** `new`: a controller holding no assertion. */
    constructor (sys: Iokit)
      ensures this.sys == sys && handle == None
      ensures Valid()
    {
      this.sys := sys;
      handle := None;
      others := sys.held;
    }

    /** `stop`: release the stored assertion, if any, exactly once, and forget it. */
    method Stop() returns (r: Result<(), NoSleepError>)
      requires Valid()
      modifies this, sys
      ensures r == Ok(())
      ensures handle == None
      ensures sys.calls == old(sys.calls) + StopCalls(old(handle))
      ensures sys.held == others
      ensures Valid()
    {
      if handle.Some? {
        sys.Stop(handle.value);
        handle := None;
      }
      return Ok(());
    }

    /**
     * The body shared by both `prevent_*` operations: stop, then start an assertion with the given
     * name and store its id only when the return code is zero.
     */
    method Prevent(name: string) returns (r: Result<(), NoSleepError>)
      requires Valid()
      modifies this, sys
      ensures var n := |old(sys.calls)| + |StopCalls(old(handle))|;
              && sys.calls == old(sys.calls) + StopCalls(old(handle)) + [StartCall(name)]
              && (sys.answer(n).code == 0 ==> r == Ok(()) && handle == Some(sys.answer(n).handle))
              && (sys.answer(n).code != 0 ==>
                    r == Err(PreventSleep(DecimalString(sys.answer(n).code))) && handle == None)
      ensures Valid()
    {
      var _ := Stop();
      var code, h := sys.Start(name);
      if code != 0 {
        return Err(PreventSleep(DecimalString(code)));
      }
      handle := Some(h);
      return Ok(());
    }

    /** `prevent_display_sleep`. */
    method PreventDisplaySleep() returns (r: Result<(), NoSleepError>)
      requires Valid()
      modifies this, sys
      ensures var n := |old(sys.calls)| + |StopCalls(old(handle))|;
              && sys.calls == old(sys.calls) + StopCalls(old(handle)) + [StartCall(DisplayAssertion)]
              && (sys.answer(n).code == 0 ==> r == Ok(()) && handle == Some(sys.answer(n).handle))
              && (sys.answer(n).code != 0 ==>
                    r == Err(PreventSleep(DecimalString(sys.answer(n).code))) && handle == None)
      ensures Valid()
    {
      r := Prevent(AssertionName(PreventUserIdleDisplaySleep));
    }

    /** `prevent_system_sleep`. */
    method PreventSystemSleep() returns (r: Result<(), NoSleepError>)
      requires Valid()
      modifies this, sys
      ensures var n := |old(sys.calls)| + |StopCalls(old(handle))|;
              && sys.calls == old(sys.calls) + StopCalls(old(handle)) + [StartCall(SystemAssertion)]
              && (sys.answer(n).code == 0 ==> r == Ok(()) && handle == Some(sys.answer(n).handle))
              && (sys.answer(n).code != 0 ==>
                    r == Err(PreventSleep(DecimalString(sys.answer(n).code))) && handle == None)
      ensures Valid()
    {
      r := Prevent(AssertionName(PreventUserIdleSystemSleep));
    }
  }

  /**
   * A fresh controller that prevents display sleep and then stops: when the OS grants the
   * assertion both calls succeed, exactly one start and one stop of the granted id go out, and
   * the OS is left holding what it held before.
   */
  method PreventThenStop(sys: Iokit) returns (started: Result<(), NoSleepError>, stopped: Result<(), NoSleepError>)
    requires sys.answer(|sys.calls|).code == 0
    modifies sys
    ensures started == Ok(()) && stopped == Ok(())
    ensures sys.calls == old(sys.calls) + [StartCall(DisplayAssertion), StopCall(sys.answer(|old(sys.calls)|).handle)]
    ensures sys.held == old(sys.held)
  {
    var nosleep := new NoSleep(sys);
    started := nosleep.PreventDisplaySleep();
    stopped := nosleep.Stop();
  }
}

=== FILE: nix.dfy ===
/**
 * The Linux backend: sleep inhibition over the D-Bus session bus, through the
 * org.gnome.SessionManager interface or, when that is unavailable, through the
 * org.freedesktop.ScreenSaver and org.freedesktop.PowerManagement interfaces.
 *
 * The bus is an oracle: the reply to the i-th message sent on a connection is
 * `answer(i)`, and a ghost multiset records the inhibitions the session holds.
 * The controller's methods are proved against the pure functions InhibitSpec,
 * ReleaseSpec and StartSpec, and the lemmas below state what those promise.
 */
module Nix {
  import opened Types

  /** The three inhibit interfaces the backend can talk to. */
  datatype DBusApi = GnomeApi | FreeDesktopPowerApi | FreeDesktopScreenSaverApi

  // Inhibit flags defined by the org.gnome.SessionManager interface.
  const InhibitSuspendSession: bv32 := 4
  const InhibitMarkSessionIdle: bv32 := 8

  /** A lock held by the session: the cookie the bus returned and the API that issued it. */
  datatype Cookie = Cookie(handle: u32, api: DBusApi)

  /** Every lock one start acquired, in acquisition order (the connection it refers to is implicit). */
  datatype Handle = Handle(cookies: seq<Cookie>)

  /** A D-Bus method call: destination, object path, interface, member and typed arguments. */
  datatype Arg = U32(n: u32) | Str(s: string)
  datatype Message = Message(destination: string, path: string, iface: string, member: string, args: seq<Arg>)

  /** What a blocking call gives back: a reply body, or a transport error such as a timeout. */
  datatype Reply = Answered(body: seq<Arg>) | Failed(reason: string)

  datatype Error =
    | DBus(reason: string)  // the call itself failed
    | InvalidResponse       // the reply carried no u32 cookie

  const AppId := "org.powersaveblocker.app"
  const Reason := "Power Save Blocker"

  /** The GNOME flags for a kind: always "inhibit suspend", plus "inhibit idle" for the display. */
  function GnomeFlags(kind: NoSleepType): (flags: bv32)
    ensures flags & InhibitSuspendSession != 0
    ensures flags & InhibitMarkSessionIdle != 0 <==> kind == PreventUserIdleDisplaySleep
    ensures flags & !(InhibitSuspendSession | InhibitMarkSessionIdle) == 0
    ensures flags as int == if kind == PreventUserIdleDisplaySleep then 12 else 4
  {
    match kind
    case PreventUserIdleDisplaySleep => InhibitMarkSessionIdle | InhibitSuspendSession
    case PreventUserIdleSystemSleep => InhibitSuspendSession
  }

  /** The Inhibit call for an API: GNOME takes (app id, xid 0, reason, flags), freedesktop (app id, reason). */
  function InhibitMsg(api: DBusApi, kind: NoSleepType): Message
  {
    match api
    case GnomeApi =>
      Message("org.gnome.SessionManager", "/org/gnome/SessionManager", "org.gnome.SessionManager",
              "Inhibit", [Str(AppId), U32(0), Str(Reason), U32(GnomeFlags(kind) as int)])
    case FreeDesktopPowerApi =>
      Message("org.freedesktop.PowerManagement", "/org/freedesktop/PowerManagement/Inhibit",
              "org.freedesktop.PowerManagement.Inhibit", "Inhibit", [Str(AppId), Str(Reason)])
    case FreeDesktopScreenSaverApi =>
      Message("org.freedesktop.ScreenSaver", "/org/freedesktop/ScreenSaver", "org.freedesktop.ScreenSaver",
              "Inhibit", [Str(AppId), Str(Reason)])
  }

  /** The call that releases a cookie issued through an API. */
  function UninhibitMsg(api: DBusApi, handle: u32): Message
  {
    match api
    case GnomeApi =>
      Message("org.gnome.SessionManager", "/org/gnome/SessionManager", "org.gnome.SessionManager",
              "Uninhibit", [U32(handle)])
    case FreeDesktopPowerApi =>
      Message("org.freedesktop.PowerManagement", "/org/freedesktop/PowerManagement/Inhibit",
              "org.freedesktop.PowerManagment.Inhibit", "UnInhibit", [U32(handle)])
    case FreeDesktopScreenSaverApi =>
      Message("org.freedesktop.ScreenSaver", "/org/freedesktop/ScreenSaver", "org.freedesktop.ScreenSaver",
              "UnInhibit", [U32(handle)])
  }

  /**
   * Every API's Inhibit call names member "Inhibit" and goes to a service and object of its
   * own; GNOME's carries (app id, xid 0, reason, flags) with the flags last, the freedesktop
   * APIs' carry only (app id, reason), whatever the kind.
   */
  lemma InhibitMsgTargets(api: DBusApi, other: DBusApi, kind: NoSleepType)
    ensures InhibitMsg(api, kind).member == "Inhibit"
    ensures InhibitMsg(api, kind).destination == InhibitMsg(other, kind).destination <==> api == other
    ensures InhibitMsg(api, kind).path == InhibitMsg(other, kind).path <==> api == other
    ensures api == GnomeApi ==>
      InhibitMsg(api, kind).args == [Str(AppId), U32(0), Str(Reason), U32(GnomeFlags(kind) as int)]
    ensures api != GnomeApi ==> InhibitMsg(api, kind).args == [Str(AppId), Str(Reason)]
  {
  }

  /**
   * A cookie's release goes to the same service and object as the Inhibit call of the API that
   * issued it, with the cookie as its only argument. Its interface is the Inhibit call's for
   * every API except PowerManagement, whose release names the misspelt
   * "org.freedesktop.PowerManagment.Inhibit"; its member is "Uninhibit" for GNOME and
   * "UnInhibit" for the freedesktop APIs.
   */
  lemma UninhibitTargetsIssuer(api: DBusApi, kind: NoSleepType, handle: u32)
    ensures UninhibitMsg(api, handle).args == [U32(handle)]
    ensures UninhibitMsg(api, handle).destination == InhibitMsg(api, kind).destination
    ensures UninhibitMsg(api, handle).path == InhibitMsg(api, kind).path
    ensures UninhibitMsg(api, handle).iface == InhibitMsg(api, kind).iface <==> api != FreeDesktopPowerApi
    ensures UninhibitMsg(api, handle).member == if api == GnomeApi then "Uninhibit" else "UnInhibit"
  {
  }

  /** The first reply argument read as a u32, as `get1::<u32>()` does. */
  function FirstU32(body: seq<Arg>): Option<u32>
  {
    if |body| > 0 && body[0].U32? then Some(body[0].n) else None
  }

  /** A call the backend makes: an Inhibit through an API, or the release of a cookie. */
  datatype Call = InhibitCall(api: DBusApi, kind: NoSleepType) | UninhibitCall(cookie: Cookie)

  /** The D-Bus message that carries a call. */
  function MessageOf(call: Call): Message
  {
    match call
    case InhibitCall(api, kind) => InhibitMsg(api, kind)
    case UninhibitCall(c) => UninhibitMsg(c.api, c.handle)
  }

  /**
   * How the inhibitions held by the session change when a service answers a call: an Inhibit
   * answered with a cookie adds it, an answered release removes it, a failed call changes nothing.
   */
  function Effect(held: multiset<Cookie>, call: Call, reply: Reply): multiset<Cookie>
  {
    if reply.Failed? then held
    else match call
      case InhibitCall(api, _) =>
        (match FirstU32(reply.body)
         case Some(h) => held + multiset{Cookie(h, api)}
         case None => held)
      case UninhibitCall(c) => held - multiset{c}
  }

  /**
   * The observable state of a connection: the calls made so far, in order (the i-th went out
   * as the message MessageOf(sent[i])), and the inhibitions held.
   */
  datatype Trace = Trace(sent: seq<Call>, held: multiset<Cookie>)

  /** One blocking call and the state it leaves behind. */
  datatype Exchange = Exchange(reply: Reply, trace: Trace)

  /** What an operation returns and the state of the connection afterwards. */
  datatype Outcome<T> = Outcome(result: Result<T, Error>, trace: Trace)

  /** One blocking call: the reply is the oracle's answer for this position in the log. */
  function Send(answer: nat -> Reply, t: Trace, call: Call): Exchange
  {
    var reply := answer(|t.sent|);
    Exchange(reply, Trace(t.sent + [call], Effect(t.held, call, reply)))
  }

  /** The release call of each cookie, in order. */
  function Uninhibits(cookies: seq<Cookie>): (calls: seq<Call>)
    ensures |calls| == |cookies|
  {
    if cookies == [] then [] else [UninhibitCall(cookies[0])] + Uninhibits(cookies[1..])
  }

  /**
   * The position of the first call, among the `count` calls from position n on, that the bus
   * does not answer; n + count when it answers them all.
   */
  function FirstFailure(answer: nat -> Reply, n: nat, count: nat): (p: nat)
    ensures n <= p <= n + count
    ensures p < n + count ==> answer(p).Failed?
    decreases count
  {
    if count == 0 || answer(n).Failed? then n else FirstFailure(answer, n + 1, count - 1)
  }

  /** Every call before the first failure is answered. */
  lemma {:induction false} FirstFailureIsFirst(answer: nat -> Reply, n: nat, count: nat, i: nat)
    requires n <= i < FirstFailure(answer, n, count)
    ensures answer(i).Answered?
    decreases count
  {
    if i > n {
      FirstFailureIsFirst(answer, n + 1, count - 1, i);
    }
  }

  /** NoSleep::inhibit: one Inhibit call, whose reply must carry a u32 cookie. */
  function InhibitSpec(answer: nat -> Reply, t: Trace, api: DBusApi, kind: NoSleepType): (res: Outcome<Cookie>)
    ensures res.trace.sent == t.sent + [InhibitCall(api, kind)]
    ensures answer(|t.sent|).Failed? ==> res.result == Err(DBus(answer(|t.sent|).reason))
    ensures answer(|t.sent|).Answered? ==>
      match FirstU32(answer(|t.sent|).body)
      case None => res.result == Err(InvalidResponse)
      case Some(h) => res.result == Ok(Cookie(h, api))
    ensures res.result.Ok? ==> res.trace.held == t.held + multiset{res.result.value}
    ensures res.result.Err? ==> res.trace.held == t.held
  {
    var step := Send(answer, t, InhibitCall(api, kind));
    if step.reply.Failed? then Outcome(Err(DBus(step.reply.reason)), step.trace)
    else match FirstU32(step.reply.body)
      case None => Outcome(Err(InvalidResponse), step.trace)
      case Some(h) => Outcome(Ok(Cookie(h, api)), step.trace)
  }

  /** NoSleepHandle::stop: release the cookies in order, giving up at the first failed call. */
  function ReleaseSpec(answer: nat -> Reply, t: Trace, cookies: seq<Cookie>): Outcome<()>
    decreases |cookies|
  {
    if cookies == [] then Outcome(Ok(()), t)
    else
      var step := Send(answer, t, UninhibitCall(cookies[0]));
      if step.reply.Failed? then Outcome(Err(DBus(step.reply.reason)), step.trace)
      else ReleaseSpec(answer, step.trace, cookies[1..])
  }

  lemma PrefixCons<T>(s: seq<T>, j: nat)
    requires 1 <= j <= |s|
    ensures s[..j] == [s[0]] + s[1..][..j - 1]
  {
  }

  lemma UninhibitsCons(c: Cookie, cookies: seq<Cookie>)
    ensures Uninhibits([c] + cookies) == [UninhibitCall(c)] + Uninhibits(cookies)
  {
    assert ([c] + cookies)[1..] == cookies;
  }

  lemma DiffDiff<T>(h: multiset<T>, a: multiset<T>, b: multiset<T>)
    ensures h - a - b == h - (a + b)
  {
    forall x ensures (h - a - b)[x] == (h - (a + b))[x] {}
  }

  /** Releasing succeeds iff the bus answers every uninhibit, and otherwise fails with the first transport error. */
  lemma {:induction false} ReleaseResult(answer: nat -> Reply, t: Trace, cookies: seq<Cookie>)
    ensures var p := FirstFailure(answer, |t.sent|, |cookies|);
            var res := ReleaseSpec(answer, t, cookies);
            && (res.result.Ok? <==> p == |t.sent| + |cookies|)
            && (res.result.Err? ==> res.result.error == DBus(answer(p).reason))
    decreases |cookies|
  {
    if cookies != [] && answer(|t.sent|).Answered? {
      var t' := Send(answer, t, UninhibitCall(cookies[0])).trace;
      assert |t'.sent| == |t.sent| + 1;
      assert ReleaseSpec(answer, t, cookies) == ReleaseSpec(answer, t', cookies[1..]);
      assert FirstFailure(answer, |t.sent|, |cookies|) == FirstFailure(answer, |t'.sent|, |cookies[1..]|);
      ReleaseResult(answer, t', cookies[1..]);
    }
  }

  /** How many uninhibits a release sends: up to and including the first unanswered one. */
  function Attempted(answer: nat -> Reply, n: nat, count: nat): (m: nat)
    ensures m <= count
  {
    var k := FirstFailure(answer, n, count) - n;
    if k < count then k + 1 else k
  }

  /** The calls a release starting at log position n makes: one per cookie until one fails. */
  function ReleaseCalls(answer: nat -> Reply, n: nat, cookies: seq<Cookie>): seq<Call>
    decreases |cookies|
  {
    if cookies == [] then []
    else if answer(n).Failed? then [UninhibitCall(cookies[0])]
    else [UninhibitCall(cookies[0])] + ReleaseCalls(answer, n + 1, cookies[1..])
  }

  lemma {:induction false} ReleaseLogsCalls(answer: nat -> Reply, t: Trace, cookies: seq<Cookie>)
    ensures ReleaseSpec(answer, t, cookies).trace.sent == t.sent + ReleaseCalls(answer, |t.sent|, cookies)
    decreases |cookies|
  {
    if cookies != [] && answer(|t.sent|).Answered? {
      var t' := Send(answer, t, UninhibitCall(cookies[0])).trace;
      var later := ReleaseCalls(answer, |t'.sent|, cookies[1..]);
      assert t'.sent == t.sent + [UninhibitCall(cookies[0])];
      assert ReleaseSpec(answer, t, cookies) == ReleaseSpec(answer, t', cookies[1..]);
      assert ReleaseCalls(answer, |t.sent|, cookies) == [UninhibitCall(cookies[0])] + later;
      assert ReleaseSpec(answer, t', cookies[1..]).trace.sent == t'.sent + later by {
        ReleaseLogsCalls(answer, t', cookies[1..]);
      }
      Associative(t.sent, [UninhibitCall(cookies[0])], later);
    }
  }

  lemma {:induction false} ReleaseCallsPrefix(answer: nat -> Reply, n: nat, cookies: seq<Cookie>)
    ensures ReleaseCalls(answer, n, cookies) == Uninhibits(cookies[..Attempted(answer, n, |cookies|)])
    decreases |cookies|
  {
    if cookies == [] {
      assert cookies[..0] == [];
    } else if answer(n).Failed? {
      UninhibitsPrefix(cookies, 1);
    } else {
      var m := Attempted(answer, n, |cookies|);
      var rest := cookies[1..];
      assert ReleaseCalls(answer, n, cookies) == [UninhibitCall(cookies[0])] + ReleaseCalls(answer, n + 1, rest);
      assert ReleaseCalls(answer, n + 1, rest) == Uninhibits(rest[..m - 1]) by {
        ReleaseCallsPrefix(answer, n + 1, rest);
        AttemptedStep(answer, n, |cookies|);
      }
      UninhibitsPrefix(cookies, m);
    }
  }

  /** Releasing sends the uninhibits in stored order, up to and including the first unanswered one. */
  lemma ReleaseSent(answer: nat -> Reply, t: Trace, cookies: seq<Cookie>)
    ensures ReleaseSpec(answer, t, cookies).trace.sent == t.sent + Uninhibits(cookies[..Attempted(answer, |t.sent|, |cookies|)])
  {
    ReleaseLogsCalls(answer, t, cookies);
    ReleaseCallsPrefix(answer, |t.sent|, cookies);
  }

  lemma Associative<T>(a: seq<T>, b: seq<T>, c: seq<T>)
    ensures (a + b) + c == a + (b + c)
  {
  }

  lemma AttemptedStep(answer: nat -> Reply, n: nat, count: nat)
    requires count >= 1 && answer(n).Answered?
    ensures Attempted(answer, n, count) >= 1
    ensures Attempted(answer, n + 1, count - 1) == Attempted(answer, n, count) - 1
  {
  }

  lemma UninhibitsPrefix(cookies: seq<Cookie>, m: nat)
    requires 1 <= m <= |cookies|
    ensures Uninhibits(cookies[..m]) == [UninhibitCall(cookies[0])] + Uninhibits(cookies[1..][..m - 1])
  {
    PrefixCons(cookies, m);
    UninhibitsCons(cookies[0], cookies[1..][..m - 1]);
  }

  /** The cookies a release starting at log position n gets answered: those before the first failure. */
  function ReleasedCookies(answer: nat -> Reply, n: nat, cookies: seq<Cookie>): seq<Cookie>
    decreases |cookies|
  {
    if cookies == [] || answer(n).Failed? then []
    else [cookies[0]] + ReleasedCookies(answer, n + 1, cookies[1..])
  }

  lemma {:induction false} ReleaseDropsReleased(answer: nat -> Reply, t: Trace, cookies: seq<Cookie>)
    ensures ReleaseSpec(answer, t, cookies).trace.held == t.held - multiset(ReleasedCookies(answer, |t.sent|, cookies))
    decreases |cookies|
  {
    if cookies != [] && answer(|t.sent|).Answered? {
      var c, rest := cookies[0], cookies[1..];
      var t' := Send(answer, t, UninhibitCall(c)).trace;
      var r := ReleasedCookies(answer, |t'.sent|, rest);
      var after := ReleaseSpec(answer, t', rest).trace.held;
      assert ReleaseSpec(answer, t, cookies).trace.held == after;
      assert ReleasedCookies(answer, |t.sent|, cookies) == [c] + r;
      assert after == t.held - multiset([c] + r) by {
        ReleaseDropsReleased(answer, t', rest);
        assert t'.held == t.held - multiset{c};
        assert multiset([c] + r) == multiset{c} + multiset(r);
        DiffDiff(t.held, multiset{c}, multiset(r));
      }
    }
  }

  lemma {:induction false} ReleasedCookiesPrefix(answer: nat -> Reply, n: nat, cookies: seq<Cookie>)
    ensures ReleasedCookies(answer, n, cookies) == cookies[..FirstFailure(answer, n, |cookies|) - n]
    decreases |cookies|
  {
    if cookies == [] || answer(n).Failed? {
      assert cookies[..0] == [];
    } else {
      ReleasedCookiesPrefix(answer, n + 1, cookies[1..]);
      PrefixCons(cookies, FirstFailure(answer, n, |cookies|) - n);
    }
  }

  /** After releasing, the session holds exactly the released cookies fewer. */
  lemma ReleaseHeld(answer: nat -> Reply, t: Trace, cookies: seq<Cookie>)
    ensures ReleaseSpec(answer, t, cookies).trace.held
            == t.held - multiset(cookies[..FirstFailure(answer, |t.sent|, |cookies|) - |t.sent|])
  {
    var released := ReleasedCookies(answer, |t.sent|, cookies);
    assert released == cookies[..FirstFailure(answer, |t.sent|, |cookies|) - |t.sent|] by {
      ReleasedCookiesPrefix(answer, |t.sent|, cookies);
    }
    ReleaseDropsReleased(answer, t, cookies);
  }

  /**
   * Releasing sends one uninhibit per cookie, in stored order, up to and including the first
   * call the bus does not answer, and none after it. It succeeds iff every call is answered,
   * otherwise fails with the first transport error; the session then holds exactly the
   * released cookies fewer.
   */
  lemma ReleaseInOrder(answer: nat -> Reply, t: Trace, cookies: seq<Cookie>)
    ensures var p := FirstFailure(answer, |t.sent|, |cookies|);
            var k := p - |t.sent|;
            var res := ReleaseSpec(answer, t, cookies);
            && (res.result.Ok? <==> k == |cookies|)
            && (res.result.Err? ==> res.result.error == DBus(answer(p).reason))
            && res.trace.sent == t.sent + Uninhibits(cookies[..if k < |cookies| then k + 1 else k])
            && res.trace.held == t.held - multiset(cookies[..k])
  {
    var k := FirstFailure(answer, |t.sent|, |cookies|) - |t.sent|;
    ReleaseResult(answer, t, cookies);
    assert Attempted(answer, |t.sent|, |cookies|) == if k < |cookies| then k + 1 else k;
    ReleaseSent(answer, t, cookies);
    ReleaseHeld(answer, t, cookies);
  }

  /** The freedesktop APIs a start falls back to, in the order it tries them. */
  function FallbackApis(kind: NoSleepType): (apis: seq<DBusApi>)
    ensures GnomeApi !in apis
    ensures |apis| > 0 && apis[|apis| - 1] == FreeDesktopPowerApi
    ensures FreeDesktopScreenSaverApi in apis <==> kind == PreventUserIdleDisplaySleep
  {
    if kind == PreventUserIdleDisplaySleep then [FreeDesktopScreenSaverApi, FreeDesktopPowerApi]
    else [FreeDesktopPowerApi]
  }

  /** The Inhibit call of each API, in order. */
  function Inhibits(apis: seq<DBusApi>, kind: NoSleepType): (calls: seq<Call>)
    ensures |calls| == |apis|
  {
    seq(|apis|, i requires 0 <= i < |apis| => InhibitCall(apis[i], kind))
  }

  function ApisOf(cookies: seq<Cookie>): (apis: seq<DBusApi>)
    ensures |apis| == |cookies|
    ensures forall i :: 0 <= i < |cookies| ==> apis[i] == cookies[i].api
  {
    seq(|cookies|, i requires 0 <= i < |cookies| => cookies[i].api)
  }

  /** Inhibit through the PowerManagement API and append its cookie to those already acquired. */
  function PushPower(answer: nat -> Reply, t: Trace, cookies: seq<Cookie>, kind: NoSleepType): Outcome<seq<Cookie>>
  {
    var power := InhibitSpec(answer, t, FreeDesktopPowerApi, kind);
    if power.result.Err? then Outcome(Err(power.result.error), power.trace)
    else Outcome(Ok(cookies + [power.result.value]), power.trace)
  }

  /**
   * The freedesktop fallback of NoSleep::start: for display sleep a ScreenSaver cookie, then a
   * PowerManagement cookie; the first failure aborts it and nothing acquired is rolled back.
   */
  function FallbackSpec(answer: nat -> Reply, t: Trace, kind: NoSleepType): Outcome<seq<Cookie>>
  {
    if kind == PreventUserIdleDisplaySleep then
      var saver := InhibitSpec(answer, t, FreeDesktopScreenSaverApi, kind);
      if saver.result.Err? then Outcome(Err(saver.result.error), saver.trace)
      else PushPower(answer, saver.trace, [saver.result.value], kind)
    else PushPower(answer, t, [], kind)
  }

  /**
   * The fallback sends the Inhibit calls of a non-empty prefix of the fallback APIs, in order,
   * all of them when it succeeds.
   */
  lemma FallbackSends(answer: nat -> Reply, t: Trace, kind: NoSleepType)
    ensures var res := FallbackSpec(answer, t, kind);
            var j := |res.trace.sent| - |t.sent|;
            && 1 <= j <= |FallbackApis(kind)|
            && res.trace.sent == t.sent + Inhibits(FallbackApis(kind)[..j], kind)
            && (res.result.Ok? ==> j == |FallbackApis(kind)|)
  {
    if kind == PreventUserIdleDisplaySleep {
      DisplayFallbackSends(answer, t);
    } else {
      var res := FallbackSpec(answer, t, kind);
      var apis := FallbackApis(kind);
      assert apis[..1] == apis;
      assert res.trace.sent == t.sent + Inhibits(apis[..1], kind);
    }
  }

  lemma DisplayFallbackSends(answer: nat -> Reply, t: Trace)
    ensures var kind := PreventUserIdleDisplaySleep;
            var res := FallbackSpec(answer, t, kind);
            var j := |res.trace.sent| - |t.sent|;
            && 1 <= j <= 2
            && res.trace.sent == t.sent + Inhibits(FallbackApis(kind)[..j], kind)
            && (res.result.Ok? ==> j == 2)
  {
    var kind := PreventUserIdleDisplaySleep;
    var res := FallbackSpec(answer, t, kind);
    var apis := FallbackApis(kind);
    var saver := InhibitSpec(answer, t, FreeDesktopScreenSaverApi, kind);
    if saver.result.Ok? {
      var power := InhibitSpec(answer, saver.trace, FreeDesktopPowerApi, kind);
      assert res.trace == power.trace && (res.result.Ok? <==> power.result.Ok?);
      assert power.trace.sent == t.sent + Inhibits(apis[..2], kind) by {
        assert apis[..2] == apis;
        assert Inhibits(apis, kind) == [InhibitCall(FreeDesktopScreenSaverApi, kind), InhibitCall(FreeDesktopPowerApi, kind)];
      }
    } else {
      assert res == Outcome(Err(saver.result.error), saver.trace);
      assert saver.trace.sent == t.sent + Inhibits(apis[..1], kind) by {
        assert Inhibits(apis[..1], kind) == [InhibitCall(FreeDesktopScreenSaverApi, kind)];
      }
    }
  }

  /** Whether the reply to an Inhibit call carries a cookie. */
  predicate YieldsCookie(r: Reply)
  {
    r.Answered? && FirstU32(r.body).Some?
  }

  /** The cookie handle a reply carries, when it carries one. */
  function CookieHandle(r: Reply): u32
  {
    if YieldsCookie(r) then FirstU32(r.body).value else 0
  }

  /** The error NoSleep::inhibit returns for a reply without a cookie. */
  function InhibitError(r: Reply): Error
  {
    if r.Failed? then DBus(r.reason) else InvalidResponse
  }

  /**
   * The position of the first reply, among the `count` from position n on, that carries no
   * cookie; n + count when they all carry one.
   */
  function FirstMiss(answer: nat -> Reply, n: nat, count: nat): (p: nat)
    ensures n <= p <= n + count
    ensures p < n + count ==> !YieldsCookie(answer(p))
    decreases count
  {
    if count == 0 || !YieldsCookie(answer(n)) then n else FirstMiss(answer, n + 1, count - 1)
  }

  /** The cookies the replies at positions n, n + 1, … carry, tagged with the APIs called there. */
  function ReplyCookies(answer: nat -> Reply, n: nat, apis: seq<DBusApi>): seq<Cookie>
  {
    seq(|apis|, i requires 0 <= i < |apis| => Cookie(CookieHandle(answer(n + i)), apis[i]))
  }
  lemma ReplyCookiesPair(answer: nat -> Reply, n: nat, first: DBusApi, second: DBusApi)
    ensures ReplyCookies(answer, n, [first, second])
            == [Cookie(CookieHandle(answer(n)), first), Cookie(CookieHandle(answer(n + 1)), second)]
  {
  }


  /**
   * NoSleep::inhibit in terms of the reply: a reply with a cookie gives that cookie tagged with
   * the API, any other reply gives InhibitError of it; one call is logged either way.
   */
  lemma InhibitByReply(answer: nat -> Reply, t: Trace, api: DBusApi, kind: NoSleepType)
    ensures var res := InhibitSpec(answer, t, api, kind);
            var r := answer(|t.sent|);
            && res.trace.sent == t.sent + [InhibitCall(api, kind)]
            && (YieldsCookie(r) ==> res.result == Ok(Cookie(CookieHandle(r), api)))
            && (!YieldsCookie(r) ==> res.result == Err(InhibitError(r)))
  {
  }

  /**
   * The fallback from trace t succeeds iff each of its Inhibit calls yields a cookie, and then
   * returns the cookies those replies carry, in fallback order; otherwise it returns the error of
   * the first Inhibit that yields none (at position p) and sends no call after that one.
   */
  ghost predicate FallbackFollowsReplies(answer: nat -> Reply, t: Trace, kind: NoSleepType)
  {
    var apis := FallbackApis(kind);
    var n := |t.sent|;
    var p := FirstMiss(answer, n, |apis|);
    var res := FallbackSpec(answer, t, kind);
    && (res.result.Ok? <==> p == n + |apis|)
    && (res.result.Ok? <==> forall i :: n <= i < n + |apis| ==> YieldsCookie(answer(i)))
    && (res.result.Err? ==>
          && res.result.error == InhibitError(answer(p))
          && res.trace.sent == t.sent + Inhibits(apis[..p - n + 1], kind))
    && (res.result.Ok? ==>
          && res.trace.sent == t.sent + Inhibits(apis, kind)
          && res.result.value == ReplyCookies(answer, n, apis))
  }

  lemma FallbackResult(answer: nat -> Reply, t: Trace, kind: NoSleepType)
    ensures FallbackFollowsReplies(answer, t, kind)
  {
    if kind == PreventUserIdleDisplaySleep {
      DisplayFallbackResult(answer, t);
    } else {
      SystemFallbackResult(answer, t);
    }
  }

  lemma DisplayFallbackResult(answer: nat -> Reply, t: Trace)
    ensures FallbackFollowsReplies(answer, t, PreventUserIdleDisplaySleep)
  {
    var kind := PreventUserIdleDisplaySleep;
    var apis := FallbackApis(kind);
    var n := |t.sent|;
    DisplayFallbackCases(answer, t);
    assert Inhibits(apis[..1], kind) == [InhibitCall(FreeDesktopScreenSaverApi, kind)];
    assert apis[..2] == apis;
    assert Inhibits(apis, kind) == [InhibitCall(FreeDesktopScreenSaverApi, kind), InhibitCall(FreeDesktopPowerApi, kind)];
    assert FirstMiss(answer, n, 2) == if !YieldsCookie(answer(n)) then n else if !YieldsCookie(answer(n + 1)) then n + 1 else n + 2;
    ReplyCookiesPair(answer, n, FreeDesktopScreenSaverApi, FreeDesktopPowerApi);
  }

  lemma SystemFallbackResult(answer: nat -> Reply, t: Trace)
    ensures FallbackFollowsReplies(answer, t, PreventUserIdleSystemSleep)
  {
    var kind := PreventUserIdleSystemSleep;
    var apis := FallbackApis(kind);
    var n := |t.sent|;
    InhibitByReply(answer, t, FreeDesktopPowerApi, kind);
    assert apis[..1] == apis;
    assert Inhibits(apis, kind) == [InhibitCall(FreeDesktopPowerApi, kind)];
    assert FirstMiss(answer, n, 1) == if YieldsCookie(answer(n)) then n + 1 else n;
    assert ReplyCookies(answer, n, apis) == [Cookie(CookieHandle(answer(n)), FreeDesktopPowerApi)];
  }

  /** The display fallback's three outcomes, by which of its two Inhibits yield a cookie. */
  lemma DisplayFallbackCases(answer: nat -> Reply, t: Trace)
    ensures var kind := PreventUserIdleDisplaySleep;
            var n := |t.sent|;
            var res := FallbackSpec(answer, t, kind);
            var saverCall, powerCall := InhibitCall(FreeDesktopScreenSaverApi, kind), InhibitCall(FreeDesktopPowerApi, kind);
            && (!YieldsCookie(answer(n)) ==>
                  res.result == Err(InhibitError(answer(n))) && res.trace.sent == t.sent + [saverCall])
            && (YieldsCookie(answer(n)) && !YieldsCookie(answer(n + 1)) ==>
                  res.result == Err(InhibitError(answer(n + 1))) && res.trace.sent == t.sent + [saverCall, powerCall])
            && (YieldsCookie(answer(n)) && YieldsCookie(answer(n + 1)) ==>
                  && res.result == Ok([Cookie(CookieHandle(answer(n)), FreeDesktopScreenSaverApi),
                                       Cookie(CookieHandle(answer(n + 1)), FreeDesktopPowerApi)])
                  && res.trace.sent == t.sent + [saverCall, powerCall])
  {
    var kind := PreventUserIdleDisplaySleep;
    var n := |t.sent|;
    var saver := InhibitSpec(answer, t, FreeDesktopScreenSaverApi, kind);
    InhibitByReply(answer, t, FreeDesktopScreenSaverApi, kind);
    if YieldsCookie(answer(n)) {
      InhibitByReply(answer, saver.trace, FreeDesktopPowerApi, kind);
      assert |saver.trace.sent| == n + 1;
      var power := InhibitSpec(answer, saver.trace, FreeDesktopPowerApi, kind);
      if power.result.Ok? {
        var res := FallbackSpec(answer, t, kind);
        assert res.result == Ok([saver.result.value] + [power.result.value]);
        assert [saver.result.value] + [power.result.value] == [saver.result.value, power.result.value];
      }
    }
  }

  lemma UnionPair<T>(m: multiset<T>, a: T, b: T)
    ensures m + multiset{a} + multiset{b} == m + multiset([a, b])
  {
    assert multiset([a, b]) == multiset{a} + multiset{b};
  }

  /** What the fallback holds after it returns, relative to what the session held before it. */
  predicate FallbackHeld(t: Trace, res: Outcome<seq<Cookie>>, kind: NoSleepType)
  {
    && (res.result.Ok? ==>
          && ApisOf(res.result.value) == FallbackApis(kind)
          && res.trace.held == t.held + multiset(res.result.value))
    && (res.result.Err? ==>
          || res.trace.held == t.held
          || exists h: u32 :: res.trace.held == t.held + multiset{Cookie(h, FreeDesktopScreenSaverApi)})
  }

  /**
   * On success the fallback holds one cookie per fallback API, tagged with that API, in order,
   * and adds exactly those to the session; on failure it adds at most the ScreenSaver cookie
   * it acquired first, and it never releases anything.
   */
  lemma FallbackHolds(answer: nat -> Reply, t: Trace, kind: NoSleepType)
    ensures FallbackHeld(t, FallbackSpec(answer, t, kind), kind)
  {
    if kind == PreventUserIdleDisplaySleep {
      DisplayFallbackHolds(answer, t);
    } else {
      var power := InhibitSpec(answer, t, FreeDesktopPowerApi, kind);
      if power.result.Ok? {
        var p := power.result.value;
        assert multiset([p]) == multiset{p};
        assert ApisOf([p]) == [FreeDesktopPowerApi];
      }
    }
  }

  lemma DisplayFallbackHolds(answer: nat -> Reply, t: Trace)
    ensures FallbackHeld(t, FallbackSpec(answer, t, PreventUserIdleDisplaySleep), PreventUserIdleDisplaySleep)
  {
    var kind := PreventUserIdleDisplaySleep;
    var res := FallbackSpec(answer, t, kind);
    var saver := InhibitSpec(answer, t, FreeDesktopScreenSaverApi, kind);
    if saver.result.Ok? {
      var c := saver.result.value;
      var power := InhibitSpec(answer, saver.trace, FreeDesktopPowerApi, kind);
      if power.result.Ok? {
        var p := power.result.value;
        assert res.result.value == [c, p];
        assert res.trace.held == t.held + multiset{c} + multiset{p};
        UnionPair(t.held, c, p);
        assert ApisOf([c, p]) == [FreeDesktopScreenSaverApi, FreeDesktopPowerApi];
      } else {
        assert res.trace.held == t.held + multiset{Cookie(c.handle, FreeDesktopScreenSaverApi)};
      }
    }
  }

  function CookiesOf(handle: Option<Handle>): seq<Cookie>
  {
    if handle.Some? then handle.value.cookies else []
  }

  /** What a start returns, the handle then stored, and the connection's new state. */
  datatype StartOutcome = StartOutcome(result: Result<(), Error>, handle: Option<Handle>, trace: Trace)

  /**
   * NoSleep::start: release the stored handle (abort if that fails), try GNOME, and on any GNOME
   * failure run the freedesktop fallback. On failure the stored handle is left as it was.
   */
  function StartSpec(answer: nat -> Reply, t: Trace, handle: Option<Handle>, kind: NoSleepType): StartOutcome
  {
    var stopped := ReleaseSpec(answer, t, CookiesOf(handle));
    if stopped.result.Err? then StartOutcome(Err(stopped.result.error), handle, stopped.trace)
    else
      var gnome := InhibitSpec(answer, stopped.trace, GnomeApi, kind);
      if gnome.result.Ok? then StartOutcome(Ok(()), Some(Handle([gnome.result.value])), gnome.trace)
      else
        var fallback := FallbackSpec(answer, gnome.trace, kind);
        if fallback.result.Err? then StartOutcome(Err(fallback.result.error), handle, fallback.trace)
        else StartOutcome(Ok(()), Some(Handle(fallback.result.value)), fallback.trace)
  }

  /** A failing release of the previous handle aborts the start before any Inhibit call. */
  lemma StartAbortsOnStopFailure(answer: nat -> Reply, t: Trace, handle: Option<Handle>, kind: NoSleepType)
    requires FirstFailure(answer, |t.sent|, |CookiesOf(handle)|) < |t.sent| + |CookiesOf(handle)|
    ensures var o := StartSpec(answer, t, handle, kind);
            var p := FirstFailure(answer, |t.sent|, |CookiesOf(handle)|);
            && o.result == Err(DBus(answer(p).reason))
            && o.handle == handle
            && o.trace.sent == t.sent + Uninhibits(CookiesOf(handle)[..p - |t.sent| + 1])
  {
    var cookies := CookiesOf(handle);
    var p := FirstFailure(answer, |t.sent|, |cookies|);
    var stopped := ReleaseSpec(answer, t, cookies);
    assert stopped.result == Err(DBus(answer(p).reason)) by {
      ReleaseResult(answer, t, cookies);
    }
    assert stopped.trace.sent == t.sent + Uninhibits(cookies[..p - |t.sent| + 1]) by {
      ReleaseSent(answer, t, cookies);
      assert Attempted(answer, |t.sent|, |cookies|) == p - |t.sent| + 1;
    }
  }

  /**
   * Once the previous handle is released, GNOME is asked first; when it answers with a cookie
   * the start succeeds holding that one GNOME cookie and makes no freedesktop call, and
   * otherwise the Inhibit calls of a non-empty prefix of the fallback APIs follow it, in order.
   */
  lemma StartTriesGnomeFirst(answer: nat -> Reply, t: Trace, handle: Option<Handle>, kind: NoSleepType)
    requires ReleaseSpec(answer, t, CookiesOf(handle)).result.Ok?
    ensures var o := StartSpec(answer, t, handle, kind);
            var released := ReleaseSpec(answer, t, CookiesOf(handle)).trace;
            var n := |released.sent|;
            && |o.trace.sent| > n
            && o.trace.sent[..n + 1] == released.sent + [InhibitCall(GnomeApi, kind)]
            && (answer(n).Answered? && FirstU32(answer(n).body).Some? ==>
                  && o.result == Ok(())
                  && o.handle == Some(Handle([Cookie(FirstU32(answer(n).body).value, GnomeApi)]))
                  && o.trace.sent == released.sent + [InhibitCall(GnomeApi, kind)])
            && (!(answer(n).Answered? && FirstU32(answer(n).body).Some?) ==>
                  var j := |o.trace.sent| - n - 1;
                  && 1 <= j <= |FallbackApis(kind)|
                  && o.trace.sent == released.sent + [InhibitCall(GnomeApi, kind)] + Inhibits(FallbackApis(kind)[..j], kind))
  {
    var released := ReleaseSpec(answer, t, CookiesOf(handle)).trace;
    var gnome := InhibitSpec(answer, released, GnomeApi, kind);
    var o := StartSpec(answer, t, handle, kind);
    if gnome.result.Ok? {
      assert o.trace == gnome.trace;
    } else {
      var fallback := FallbackSpec(answer, gnome.trace, kind);
      assert o.trace == fallback.trace;
      FallbackSends(answer, gnome.trace, kind);
      assert o.trace.sent[..|gnome.trace.sent|] == gnome.trace.sent;
    }
  }

  /** When GNOME yields no cookie, the start's outcome is built from the fallback's alone. */
  lemma StartDefersToFallback(answer: nat -> Reply, t: Trace, handle: Option<Handle>, kind: NoSleepType)
    requires ReleaseSpec(answer, t, CookiesOf(handle)).result.Ok?
    requires !YieldsCookie(answer(|ReleaseSpec(answer, t, CookiesOf(handle)).trace.sent|))
    ensures var released := ReleaseSpec(answer, t, CookiesOf(handle)).trace;
            var gnome := InhibitSpec(answer, released, GnomeApi, kind).trace;
            var fallback := FallbackSpec(answer, gnome, kind);
            && gnome.sent == released.sent + [InhibitCall(GnomeApi, kind)]
            && StartSpec(answer, t, handle, kind)
               == if fallback.result.Err? then StartOutcome(Err(fallback.result.error), handle, fallback.trace)
                  else StartOutcome(Ok(()), Some(Handle(fallback.result.value)), fallback.trace)
  {
    InhibitByReply(answer, ReleaseSpec(answer, t, CookiesOf(handle)).trace, GnomeApi, kind);
  }

  /**
   * When GNOME yields no cookie, the start succeeds iff every fallback Inhibit yields a
   * cookie, and then stores exactly those cookies in fallback order; otherwise it returns the
   * error of the first Inhibit that yields none, keeps the previous handle, and sends no
   * Inhibit after that one.
   */
  lemma StartFallsBack(answer: nat -> Reply, t: Trace, handle: Option<Handle>, kind: NoSleepType)
    requires ReleaseSpec(answer, t, CookiesOf(handle)).result.Ok?
    requires !YieldsCookie(answer(|ReleaseSpec(answer, t, CookiesOf(handle)).trace.sent|))
    ensures var released := ReleaseSpec(answer, t, CookiesOf(handle)).trace;
            var n := |released.sent| + 1;
            var apis := FallbackApis(kind);
            var p := FirstMiss(answer, n, |apis|);
            var o := StartSpec(answer, t, handle, kind);
            && (o.result.Ok? <==> p == n + |apis|)
            && (o.result.Ok? <==> forall i :: n <= i < n + |apis| ==> YieldsCookie(answer(i)))
            && (o.result.Err? ==>
                  && o.result == Err(InhibitError(answer(p)))
                  && o.handle == handle
                  && o.trace.sent == released.sent + [InhibitCall(GnomeApi, kind)] + Inhibits(apis[..p - n + 1], kind))
            && (o.result.Ok? ==>
                  && o.handle.Some?
                  && o.handle.value.cookies == ReplyCookies(answer, n, apis)
                  && o.trace.sent == released.sent + [InhibitCall(GnomeApi, kind)] + Inhibits(apis, kind))
  {
    var released := ReleaseSpec(answer, t, CookiesOf(handle)).trace;
    var gnome := InhibitSpec(answer, released, GnomeApi, kind).trace;
    StartDefersToFallback(answer, t, handle, kind);
    FallbackConcludes(answer, gnome, released.sent + [InhibitCall(GnomeApi, kind)], |released.sent| + 1, kind, handle,
                      StartSpec(answer, t, handle, kind));
  }

  /** FallbackResult, read off the start outcome that a fallback from trace g, whose n calls are sent, concludes. */
  lemma FallbackConcludes(answer: nat -> Reply, g: Trace, sent: seq<Call>, n: nat, kind: NoSleepType, handle: Option<Handle>,
                          o: StartOutcome)
    requires g.sent == sent && |sent| == n
    requires var fallback := FallbackSpec(answer, g, kind);
             o == if fallback.result.Err? then StartOutcome(Err(fallback.result.error), handle, fallback.trace)
                  else StartOutcome(Ok(()), Some(Handle(fallback.result.value)), fallback.trace)
    ensures var apis := FallbackApis(kind);
            var p := FirstMiss(answer, n, |apis|);
            && (o.result.Ok? <==> p == n + |apis|)
            && (o.result.Ok? <==> forall i :: n <= i < n + |apis| ==> YieldsCookie(answer(i)))
            && (o.result.Err? ==>
                  && o.result == Err(InhibitError(answer(p)))
                  && o.handle == handle
                  && o.trace.sent == sent + Inhibits(apis[..p - n + 1], kind))
            && (o.result.Ok? ==>
                  && o.handle.Some?
                  && o.handle.value.cookies == ReplyCookies(answer, n, apis)
                  && o.trace.sent == sent + Inhibits(apis, kind))
  {
    FallbackResult(answer, g, kind);
  }

  /**
   * A successful start stores either one GNOME cookie or exactly the fallback APIs' cookies in
   * fallback order, and the session then holds every stored cookie on top of what it held once
   * the previous handle was released. A failed start keeps the previous handle.
   */
  lemma StartStoresWhatItHolds(answer: nat -> Reply, t: Trace, handle: Option<Handle>, kind: NoSleepType)
    ensures var o := StartSpec(answer, t, handle, kind);
            var released := ReleaseSpec(answer, t, CookiesOf(handle)).trace;
            && (o.result.Ok? ==>
                  && o.handle.Some?
                  && (ApisOf(o.handle.value.cookies) == [GnomeApi] || ApisOf(o.handle.value.cookies) == FallbackApis(kind))
                  && o.trace.held == released.held + multiset(o.handle.value.cookies))
            && (o.result.Err? ==> o.handle == handle)
  {
    var stopped := ReleaseSpec(answer, t, CookiesOf(handle));
    if stopped.result.Ok? {
      var gnome := InhibitSpec(answer, stopped.trace, GnomeApi, kind);
      if gnome.result.Ok? {
        assert ApisOf([gnome.result.value]) == [GnomeApi];
      } else {
        FallbackHolds(answer, gnome.trace, kind);
      }
    }
  }

  /**
   * No rollback: when GNOME fails for display sleep, ScreenSaver hands out a cookie and
   * PowerManagement then fails, the start fails and keeps the previous handle, sends no
   * uninhibit for the ScreenSaver cookie, and the session is left holding it.
   */
  lemma StartLeaksScreenSaverCookie(answer: nat -> Reply, t: Trace, handle: Option<Handle>, h: u32)
    requires ReleaseSpec(answer, t, CookiesOf(handle)).result.Ok?
    requires var n := |ReleaseSpec(answer, t, CookiesOf(handle)).trace.sent|;
             answer(n).Failed? && answer(n + 1) == Answered([U32(h)]) && answer(n + 2).Failed?
    ensures var o := StartSpec(answer, t, handle, PreventUserIdleDisplaySleep);
            var released := ReleaseSpec(answer, t, CookiesOf(handle)).trace;
            && o.result == Err(DBus(answer(|released.sent| + 2).reason))
            && o.handle == handle
            && o.trace.sent == released.sent + [InhibitCall(GnomeApi, PreventUserIdleDisplaySleep),
                                                InhibitCall(FreeDesktopScreenSaverApi, PreventUserIdleDisplaySleep),
                                                InhibitCall(FreeDesktopPowerApi, PreventUserIdleDisplaySleep)]
            && o.trace.held == released.held + multiset{Cookie(h, FreeDesktopScreenSaverApi)}
  {
    var kind := PreventUserIdleDisplaySleep;
    var released := ReleaseSpec(answer, t, CookiesOf(handle)).trace;
    var n := |released.sent|;
    var gnome := InhibitSpec(answer, released, GnomeApi, kind);
    assert gnome.result.Err? && gnome.trace == Trace(released.sent + [InhibitCall(GnomeApi, kind)], released.held);
    var saver := InhibitSpec(answer, gnome.trace, FreeDesktopScreenSaverApi, kind);
    assert FirstU32(answer(n + 1).body) == Some(h);
    assert saver.result == Ok(Cookie(h, FreeDesktopScreenSaverApi));
    var power := InhibitSpec(answer, saver.trace, FreeDesktopPowerApi, kind);
    assert |saver.trace.sent| == n + 2;
    assert power.result == Err(DBus(answer(n + 2).reason)) && power.trace.held == saver.trace.held;
    assert StartSpec(answer, t, handle, kind) == StartOutcome(Err(DBus(answer(n + 2).reason)), handle, power.trace);
  }

  /** The session bus connection: an oracle that answers the i-th call with `answer(i)`. */
  class Connection {
    const answer: nat -> Reply
    var sent: seq<Call>
    ghost var held: multiset<Cookie>

    ghost function State(): Trace
      reads this
    {
      Trace(sent, held)
    }

    constructor (answer: nat -> Reply)
      ensures this.answer == answer && sent == [] && held == multiset{}
    {
      this.answer := answer;
      sent := [];
      held := multiset{};
    }

    /** send_with_reply_and_block of the call's message. */
    method SendWithReplyAndBlock(call: Call) returns (reply: Reply)
      modifies this
      ensures Exchange(reply, State()) == Send(answer, old(State()), call)
    {
      reply := answer(|sent|);
      held := Effect(held, call, reply);
      sent := sent + [call];
    }
  }

  /** NoSleepHandle::stop: uninhibit every cookie in order, returning the first error. */
  method StopHandle(bus: Connection, handle: Handle) returns (r: Result<(), Error>)
    modifies bus
    ensures Outcome(r, bus.State()) == ReleaseSpec(bus.answer, old(bus.State()), handle.cookies)
  {
    var cookies := handle.cookies;
    for i := 0 to |cookies|
      invariant ReleaseSpec(bus.answer, old(bus.State()), cookies) == ReleaseSpec(bus.answer, bus.State(), cookies[i..])
    {
      var cookie := cookies[i];
      assert cookies[i..][1..] == cookies[i + 1..];
      var reply := bus.SendWithReplyAndBlock(UninhibitCall(cookie));
      if reply.Failed? {
        return Err(DBus(reply.reason));
      }
    }
    return Ok(());
  }

  /** The Linux controller: a session bus connection and at most one stored handle. */
  class NoSleep {
    const bus: Connection
    var handle: Option<Handle>

    constructor (bus: Connection)
      ensures this.bus == bus && handle == None
    {
      this.bus := bus;
      handle := None;
    }

    method Inhibit(api: DBusApi, kind: NoSleepType) returns (r: Result<Cookie, Error>)
      modifies bus
      ensures Outcome(r, bus.State()) == InhibitSpec(bus.answer, old(bus.State()), api, kind)
    {
      var reply := bus.SendWithReplyAndBlock(InhibitCall(api, kind));
      if reply.Failed? {
        return Err(DBus(reply.reason));
      }
      var cookie := FirstU32(reply.body);
      if cookie.None? {
        return Err(InvalidResponse);
      }
      return Ok(Cookie(cookie.value, api));
    }

    /** Releases the stored handle's cookies; the handle itself stays stored. */
    method Stop() returns (r: Result<(), Error>)
      modifies bus
      ensures Outcome(r, bus.State()) == ReleaseSpec(bus.answer, old(bus.State()), CookiesOf(handle))
    {
      r := StopHandle(bus, Handle(CookiesOf(handle)));
    }

    method Start(kind: NoSleepType) returns (r: Result<(), Error>)
      modifies this, bus
      ensures StartOutcome(r, handle, bus.State()) == StartSpec(bus.answer, old(bus.State()), old(handle), kind)
    {
      r := Stop();
      if r.Err? {
        return;
      }
      var gnome := Inhibit(GnomeApi, kind);
      if gnome.Ok? {
        handle := Some(Handle([gnome.value]));
        return Ok(());
      }
      var cookies: seq<Cookie> := [];
      if kind == PreventUserIdleDisplaySleep {
        var cookie :- Inhibit(FreeDesktopScreenSaverApi, kind);
        cookies := [cookie];
      }
      var cookie :- Inhibit(FreeDesktopPowerApi, kind);
      cookies := cookies + [cookie];
      handle := Some(Handle(cookies));
      r := Ok(());
    }
  }
}

=== FILE: types.dfy ===
/** Types shared by every platform backend of the sleep inhibitor. */
module Types {

  /** What kind of idle-triggered low-power state to prevent. */
  datatype NoSleepType =
    | PreventUserIdleDisplaySleep  // keep the display from dimming, e.g. while a video plays
    | PreventUserIdleSystemSleep   // keep the system from suspending, e.g. while a download runs

  /** The error type of the cross-platform interface; only the variant the macOS backend raises. */
  datatype NoSleepError = PreventSleep(reason: string)

  datatype Option<+T> = None | Some(value: T)

  /** The outcome of a fallible operation; `:-` plays the part of Rust's `?` operator. */
  datatype Result<+T, +E> = Ok(value: T) | Err(error: E) {
    predicate IsFailure() { Err? }

    function PropagateFailure<U>(): Result<U, E>
      requires Err?
    {
      Err(error)
    }

    function Extract(): T
      requires Ok?
    {
      value
    }

    /** Discards the error, as Rust's `Result::ok` does. */
    function ToOption(): (o: Option<T>)
      ensures o.Some? <==> Ok?
      ensures o.Some? ==> o.value == value
    {
      match this
      case Ok(v) => Some(v)
      case Err(_) => None
    }
  }

  type u16 = x: int | 0 <= x < 0x1_0000
  type u32 = x: int | 0 <= x < 0x1_0000_0000
  type i32 = x: int | -0x8000_0000 <= x < 0x8000_0000
}

=== FILE: windows.dfy ===
/**
 * The Windows backend: power requests created, set and cleared through the Win32 power
 * request API, with the reason string passed as a NUL-terminated UTF-16 string.
 *
 * The power request API is an oracle: the i-th call gets `answer(i)`. A ghost multiset
 * records the request types the OS keeps active. The controller's methods are proved
 * against the pure functions CreateSpec, StopHandleSpec and StartSpec.
 */
module Windows {
  import opened Types

  // UTF-16 encoding of a string (section 2.1 of RFC 2781), as `str::encode_utf16` produces it.

  predicate IsHighSurrogate(u: int) { 0xD800 <= u < 0xDC00 }
  predicate IsLowSurrogate(u: int) { 0xDC00 <= u < 0xE000 }

  /** The code units of one character: itself below U+10000, otherwise a surrogate pair. */
  function Utf16Units(c: char): (units: seq<u16>)
    ensures 1 <= |units| <= 2
    ensures |units| == 1 <==> c as int < 0x1_0000
    ensures |units| == 1 ==> units[0] == c as int && !IsHighSurrogate(units[0]) && !IsLowSurrogate(units[0])
    ensures |units| == 2 ==> IsHighSurrogate(units[0]) && IsLowSurrogate(units[1])
  {
    var v := c as int;
    if v < 0x1_0000 then [v]
    else
      var w := v - 0x1_0000;
      [0xD800 + w / 0x400, 0xDC00 + w % 0x400]
  }

  function EncodeUtf16(s: string): seq<u16>
  {
    if s == [] then [] else Utf16Units(s[0]) + EncodeUtf16(s[1..])
  }

  /** The character a surrogate pair stands for. */
  function CombineSurrogates(high: u16, low: u16): (c: char)
    requires IsHighSurrogate(high) && IsLowSurrogate(low)
    ensures c as int >= 0x1_0000
  {
    assert (high - 0xD800) * 0x400 <= 0x3FF * 0x400;
    (0x1_0000 + (high - 0xD800) * 0x400 + (low - 0xDC00)) as char
  }

  /** Decodes well-formed UTF-16; an unpaired surrogate makes the whole input ill-formed. */
  function DecodeUtf16(units: seq<u16>): Option<string>
    decreases |units|
  {
    if units == [] then Some([])
    else if IsLowSurrogate(units[0]) then None
    else if IsHighSurrogate(units[0]) then
      if |units| < 2 || !IsLowSurrogate(units[1]) then None
      else match DecodeUtf16(units[2..])
        case None => None
        case Some(rest) => Some([CombineSurrogates(units[0], units[1])] + rest)
    else match DecodeUtf16(units[1..])
      case None => None
      case Some(rest) => Some([units[0] as char] + rest)
  }

  lemma DecodeUnits(c: char, rest: seq<u16>)
    ensures DecodeUtf16(Utf16Units(c) + rest)
            == match DecodeUtf16(rest) case None => None case Some(r) => Some([c] + r)
  {
    var units := Utf16Units(c) + rest;
    if c as int < 0x1_0000 {
      assert units[1..] == rest;
    } else {
      assert units[2..] == rest;
      var w := c as int - 0x1_0000;
      assert (w / 0x400) * 0x400 + w % 0x400 == w;
    }
  }

  /** Decoding inverts encoding. */
  lemma {:induction false} Utf16RoundTrip(s: string)
    ensures DecodeUtf16(EncodeUtf16(s)) == Some(s)
  {
    if s != [] {
      Utf16RoundTrip(s[1..]);
      DecodeUnits(s[0], EncodeUtf16(s[1..]));
      assert [s[0]] + s[1..] == s;
    }
  }

  /** How many characters of s lie above U+FFFF, each of which takes two code units. */
  function Supplementary(s: string): (n: nat)
    ensures n <= |s|
  {
    if s == [] then 0 else (if s[0] as int < 0x1_0000 then 0 else 1) + Supplementary(s[1..])
  }

  /** A string takes one code unit per character plus one more per supplementary character. */
  lemma {:induction false} EncodeLength(s: string)
    ensures |EncodeUtf16(s)| == |s| + Supplementary(s)
  {
    if s != [] {
      EncodeLength(s[1..]);
    }
  }

  /** A string without supplementary characters encodes to one code unit per character, its code point. */
  lemma {:induction false} BmpEncoding(s: string)
    requires forall i :: 0 <= i < |s| ==> s[i] as int < 0x1_0000
    ensures EncodeUtf16(s) == seq(|s|, i requires 0 <= i < |s| => s[i] as int)
  {
    if s != [] {
      BmpEncoding(s[1..]);
    }
  }

  /** Only the NUL character encodes to a zero code unit. */
  lemma {:induction false} EncodeHasNoZero(s: string)
    requires '\0' !in s
    ensures 0 !in EncodeUtf16(s)
  {
    if s != [] {
      assert s[0] != '\0' && '\0' !in s[1..];
      EncodeHasNoZero(s[1..]);
    }
  }

  /** `into_pwstr`: the string's UTF-16 code units followed by one NUL terminator. */
  function IntoPwstr(s: string): (units: seq<u16>)
    ensures |units| == |s| + Supplementary(s) + 1
    ensures units[|units| - 1] == 0
  {
    EncodeLength(s);
    EncodeUtf16(s) + [0]
  }

  /** What a reader of a NUL-terminated wide string sees: the code units before the first NUL. */
  function UntilNul(units: seq<u16>): (prefix: seq<u16>)
    ensures 0 !in prefix
  {
    if units == [] || units[0] == 0 then [] else [units[0]] + UntilNul(units[1..])
  }

  lemma {:induction false} UntilNulStops(body: seq<u16>)
    requires 0 !in body
    ensures UntilNul(body + [0]) == body
  {
    if body != [] {
      assert (body + [0])[1..] == body[1..] + [0];
      UntilNulStops(body[1..]);
    }
  }

  /** For a string without NUL characters, the OS reads back exactly the string passed in. */
  lemma PwstrRoundTrip(s: string)
    requires '\0' !in s
    ensures DecodeUtf16(UntilNul(IntoPwstr(s))) == Some(s)
  {
    EncodeHasNoZero(s);
    UntilNulStops(EncodeUtf16(s));
    Utf16RoundTrip(s);
  }

  // Power requests.

  /** The two power request types the backend uses. */
  datatype RequestType = SystemRequired | DisplayRequired

  datatype Error =
    | PreventPowerSaveMode(option: RequestType)   // setting a created request failed
    | ClearPowerSaveMode(option: RequestType)     // clearing a request failed
    | CouldNotCreatePowerRequest(code: i32)       // creating the request failed with this error code

  /** The reason string every request is created with. */
  const Reason := "Power Save Blocker"

  /** A request the OS keeps active: the request object and the type set on it. */
  datatype Request = Request(handle: nat, option: RequestType)

  /** A call into the power request API, as logged. */
  datatype PowerCall =
    | Create(reason: string)                      // PowerCreateRequest with a simple reason string
    | Set(handle: nat, option: RequestType)       // PowerSetRequest
    | Clear(handle: nat, option: RequestType)     // PowerClearRequest

  /**
   * The OS's answer to a call: success (for a create, carrying the new request's handle) or
   * failure (for a create, carrying its error code).
   */
  datatype Answer = Granted(handle: nat) | Refused(code: i32)

  /** The calls made so far, in order, and the requests the OS keeps active. */
  datatype Trace = Trace(calls: seq<PowerCall>, active: multiset<Request>)

  datatype Outcome<T> = Outcome(result: Result<T, Error>, trace: Trace)

  /** One call: the answer is the oracle's for this position in the log. */
  function Call(answer: nat -> Answer, t: Trace, call: PowerCall): (Answer, Trace)
  {
    var a := answer(|t.calls|);
    var active :=
      if a.Refused? then t.active
      else match call
        case Create(_) => t.active
        case Set(h, option) => t.active + multiset{Request(h, option)}
        case Clear(h, option) => t.active - multiset{Request(h, option)};
    (a, Trace(t.calls + [call], active))
  }

  /**
   * create_power_request: create a request with the reason string and set the type on it. The
   * created request is not released when setting it fails.
   */
  function CreateSpec(answer: nat -> Answer, t: Trace, option: RequestType): (res: Outcome<nat>)
    ensures var created := answer(|t.calls|);
            && (created.Refused? ==>
                  && res.result == Err(CouldNotCreatePowerRequest(created.code))
                  && res.trace == Trace(t.calls + [Create(Reason)], t.active))
            && (created.Granted? ==>
                  && res.trace.calls == t.calls + [Create(Reason), Set(created.handle, option)]
                  && (answer(|t.calls| + 1).Granted? ==>
                        && res.result == Ok(created.handle)
                        && res.trace.active == t.active + multiset{Request(created.handle, option)})
                  && (answer(|t.calls| + 1).Refused? ==>
                        && res.result == Err(PreventPowerSaveMode(option))
                        && res.trace.active == t.active))
  {
    var (created, t1) := Call(answer, t, Create(Reason));
    if created.Refused? then Outcome(Err(CouldNotCreatePowerRequest(created.code)), t1)
    else
      var (setting, t2) := Call(answer, t1, Set(created.handle, option));
      if setting.Granted? then Outcome(Ok(created.handle), t2)
      else Outcome(Err(PreventPowerSaveMode(option)), t2)
  }

  /** The requests one start holds: always a system request, and the display request if it got one. */
  datatype Handle = Handle(system: nat, display: Option<nat>)

  /**
   * The second half of NoSleepHandle::stop: clear the display request if there is one. An
   * absent display request counts as cleared.
   */
  function ClearDisplaySpec(answer: nat -> Answer, t: Trace, display: Option<nat>): (res: Outcome<()>)
    ensures display.None? ==> res == Outcome(Ok(()), t)
    ensures display.Some? ==>
              var request := Request(display.value, DisplayRequired);
              && res.trace.calls == t.calls + [Clear(display.value, DisplayRequired)]
              && (answer(|t.calls|).Granted? ==> res.result == Ok(()) && res.trace.active == t.active - multiset{request})
              && (answer(|t.calls|).Refused? ==> res.result == Err(ClearPowerSaveMode(DisplayRequired)) && res.trace.active == t.active)
  {
    if display.None? then Outcome(Ok(()), t)
    else
      var (cleared, t1) := Call(answer, t, Clear(display.value, DisplayRequired));
      if cleared.Refused? then Outcome(Err(ClearPowerSaveMode(DisplayRequired)), t1)
      else Outcome(Ok(()), t1)
  }

  /**
   * NoSleepHandle::stop: clear the system request first; if that fails, return its error
   * without touching the display request, otherwise go on to the display request.
   */
  function StopHandleSpec(answer: nat -> Answer, t: Trace, handle: Handle): (res: Outcome<()>)
    ensures var cleared := Trace(t.calls + [Clear(handle.system, SystemRequired)], t.active);
            && (answer(|t.calls|).Refused? ==> res == Outcome(Err(ClearPowerSaveMode(SystemRequired)), cleared))
            && (answer(|t.calls|).Granted? ==>
                  res == ClearDisplaySpec(answer, cleared.(active := t.active - multiset{Request(handle.system, SystemRequired)}), handle.display))
  {
    var (system, t1) := Call(answer, t, Clear(handle.system, SystemRequired));
    if system.Refused? then Outcome(Err(ClearPowerSaveMode(SystemRequired)), t1)
    else ClearDisplaySpec(answer, t1, handle.display)
  }

  /** What a start returns, the handle then stored, and the new state. */
  datatype StartOutcome = StartOutcome(result: Result<(), Error>, handle: Option<Handle>, trace: Trace)

  /** The stop `start` runs first: NoSleepHandle::stop of the stored handle, if there is one. */
  function ReleaseStored(answer: nat -> Answer, t: Trace, stored: Option<Handle>): (res: Outcome<()>)
    ensures stored.None? ==> res == Outcome(Ok(()), t)
  {
    if stored.Some? then StopHandleSpec(answer, t, stored.value) else Outcome(Ok(()), t)
  }

  /**
   * What `start` does once the stored handle is stopped: create the system request (abort if
   * that fails), then for display sleep try the display request, whose failure is ignored.
   */
  function AcquireSpec(answer: nat -> Answer, t: Trace, stored: Option<Handle>, kind: NoSleepType): StartOutcome
  {
    var system := CreateSpec(answer, t, SystemRequired);
    if system.result.Err? then StartOutcome(Err(system.result.error), stored, system.trace)
    else if kind == PreventUserIdleDisplaySleep then
      var display := CreateSpec(answer, system.trace, DisplayRequired);
      StartOutcome(Ok(()), Some(Handle(system.result.value, display.result.ToOption())), display.trace)
    else StartOutcome(Ok(()), Some(Handle(system.result.value, None)), system.trace)
  }

  /** NoSleep::start: stop a stored handle (abort if that fails), then acquire; on failure the stored handle is kept. */
  function StartSpec(answer: nat -> Answer, t: Trace, stored: Option<Handle>, kind: NoSleepType): StartOutcome
  {
    var stopped := ReleaseStored(answer, t, stored);
    if stopped.result.Err? then StartOutcome(Err(stopped.result.error), stored, stopped.trace)
    else AcquireSpec(answer, stopped.trace, stored, kind)
  }

  /** The clear calls a stop makes when every one is granted: the system request's, then the display request's. */
  function ClearCalls(handle: Handle): (calls: seq<PowerCall>)
    ensures |calls| == if handle.display.Some? then 2 else 1
    ensures calls[0] == Clear(handle.system, SystemRequired)
  {
    [Clear(handle.system, SystemRequired)]
      + if handle.display.Some? then [Clear(handle.display.value, DisplayRequired)] else []
  }

  /**
   * Start stops first. With nothing stored it goes straight to acquiring. With a stored handle it
   * clears the system request, then a present display request; the first refused clear aborts
   * the start with that request type's error, keeps the stored handle and sends no create; when
   * every clear is granted, acquiring starts from the state with the handle's requests removed.
   */
  lemma StartStopsFirst(answer: nat -> Answer, t: Trace, stored: Option<Handle>, kind: NoSleepType)
    ensures var o := StartSpec(answer, t, stored, kind);
            var n := |t.calls|;
            && (stored.None? ==> o == AcquireSpec(answer, t, None, kind))
            && (stored.Some? && answer(n).Refused? ==>
                  o == StartOutcome(Err(ClearPowerSaveMode(SystemRequired)), stored,
                                    Trace(t.calls + [Clear(stored.value.system, SystemRequired)], t.active)))
            && (stored.Some? && answer(n).Granted? && stored.value.display.Some? && answer(n + 1).Refused? ==>
                  o == StartOutcome(Err(ClearPowerSaveMode(DisplayRequired)), stored,
                                    Trace(t.calls + ClearCalls(stored.value),
                                          t.active - multiset{Request(stored.value.system, SystemRequired)})))
            && (stored.Some? && answer(n).Granted? && (stored.value.display.Some? ==> answer(n + 1).Granted?) ==>
                  o == AcquireSpec(answer, Trace(t.calls + ClearCalls(stored.value), t.active - Requests(stored.value)), stored, kind))
  {
    if stored.Some? {
      StopHandleSteps(answer, t, stored.value);
    }
  }

  /** NoSleepHandle::stop over the oracle's answers, case by case. */
  lemma StopHandleSteps(answer: nat -> Answer, t: Trace, handle: Handle)
    ensures var res := StopHandleSpec(answer, t, handle);
            var n := |t.calls|;
            var system := Request(handle.system, SystemRequired);
            && (answer(n).Refused? ==>
                  res == Outcome(Err(ClearPowerSaveMode(SystemRequired)), Trace(t.calls + [Clear(handle.system, SystemRequired)], t.active)))
            && (answer(n).Granted? && handle.display.Some? && answer(n + 1).Refused? ==>
                  res == Outcome(Err(ClearPowerSaveMode(DisplayRequired)), Trace(t.calls + ClearCalls(handle), t.active - multiset{system})))
            && (answer(n).Granted? && (handle.display.Some? ==> answer(n + 1).Granted?) ==>
                  res == Outcome(Ok(()), Trace(t.calls + ClearCalls(handle), t.active - Requests(handle))))
  {
    var n := |t.calls|;
    if answer(n).Granted? {
      if handle.display.Some? && answer(n + 1).Refused? {
        StopDisplayRefused(answer, t, handle);
      } else if handle.display.Some? {
        StopBothCleared(answer, t, handle);
      } else {
        StopSystemCleared(answer, t, handle);
      }
    }
  }

  lemma StopDisplayRefused(answer: nat -> Answer, t: Trace, handle: Handle)
    requires answer(|t.calls|).Granted? && handle.display.Some? && answer(|t.calls| + 1).Refused?
    ensures StopHandleSpec(answer, t, handle)
            == Outcome(Err(ClearPowerSaveMode(DisplayRequired)),
                       Trace(t.calls + ClearCalls(handle), t.active - multiset{Request(handle.system, SystemRequired)}))
  {
    var t1 := Trace(t.calls + [Clear(handle.system, SystemRequired)], t.active - multiset{Request(handle.system, SystemRequired)});
    assert StopHandleSpec(answer, t, handle) == ClearDisplaySpec(answer, t1, handle.display);
    assert t1.calls + [Clear(handle.display.value, DisplayRequired)] == t.calls + ClearCalls(handle);
  }

  lemma StopBothCleared(answer: nat -> Answer, t: Trace, handle: Handle)
    requires answer(|t.calls|).Granted? && handle.display.Some? && answer(|t.calls| + 1).Granted?
    ensures StopHandleSpec(answer, t, handle) == Outcome(Ok(()), Trace(t.calls + ClearCalls(handle), t.active - Requests(handle)))
  {
    var system := Request(handle.system, SystemRequired);
    var display := Request(handle.display.value, DisplayRequired);
    var t1 := Trace(t.calls + [Clear(handle.system, SystemRequired)], t.active - multiset{system});
    var calls := t1.calls + [Clear(handle.display.value, DisplayRequired)];
    assert StopHandleSpec(answer, t, handle) == ClearDisplaySpec(answer, t1, handle.display);
    assert ClearDisplaySpec(answer, t1, handle.display) == Outcome(Ok(()), Trace(calls, t1.active - multiset{display}));
    assert calls == t.calls + ClearCalls(handle);
    assert t1.active - multiset{display} == t.active - Requests(handle) by {
      assert Requests(handle) == multiset{system} + multiset{display};
    }
  }

  lemma StopSystemCleared(answer: nat -> Answer, t: Trace, handle: Handle)
    requires answer(|t.calls|).Granted? && handle.display.None?
    ensures StopHandleSpec(answer, t, handle) == Outcome(Ok(()), Trace(t.calls + ClearCalls(handle), t.active - Requests(handle)))
  {
    assert Requests(handle) == multiset{Request(handle.system, SystemRequired)};
  }

  /**
   * After the stop, the system request is created and set first; if that fails the start
   * returns its error, keeps the stored handle and makes no further call, so no display request
   * is attempted.
   */
  lemma StartSystemFirst(answer: nat -> Answer, t: Trace, stored: Option<Handle>, kind: NoSleepType)
    ensures var system := CreateSpec(answer, t, SystemRequired);
            var o := AcquireSpec(answer, t, stored, kind);
            && |o.trace.calls| >= |t.calls| + 1
            && o.trace.calls[..|t.calls| + 1] == t.calls + [Create(Reason)]
            && (system.result.Err? ==> o == StartOutcome(Err(system.result.error), stored, system.trace))
  {
    var system := CreateSpec(answer, t, SystemRequired);
    var o := AcquireSpec(answer, t, stored, kind);
    assert o.trace.calls[..|t.calls| + 1] == system.trace.calls[..|t.calls| + 1];
  }

  /**
   * Once the system request is set, the start succeeds whatever happens to the display request:
   * for system sleep it stores no display request and makes no further call; for display sleep
   * it makes one more Create, then a Set only when that Create was granted, and nothing else, and
   * it stores the display request exactly when both were granted.
   */
  lemma StartDisplayBestEffort(answer: nat -> Answer, t: Trace, stored: Option<Handle>, kind: NoSleepType)
    requires CreateSpec(answer, t, SystemRequired).result.Ok?
    ensures var system := CreateSpec(answer, t, SystemRequired);
            var o := AcquireSpec(answer, t, stored, kind);
            var n := |system.trace.calls|;
            && o.result == Ok(())
            && o.handle.Some? && o.handle.value.system == system.result.value
            && (kind == PreventUserIdleSystemSleep ==> o.handle.value.display == None && o.trace == system.trace)
            && (kind == PreventUserIdleDisplaySleep ==>
                  && (o.handle.value.display.Some? <==> answer(n).Granted? && answer(n + 1).Granted?)
                  && (o.handle.value.display.Some? ==> o.handle.value.display.value == answer(n).handle)
                  && o.trace.calls == system.trace.calls + [Create(Reason)]
                                      + (if answer(n).Granted? then [Set(answer(n).handle, DisplayRequired)] else []))
  {
  }

  /**
   * A successful start leaves the OS keeping every request the stored handle names active, on
   * top of what was active once the previous handle was stopped; a failed start keeps the
   * previous handle.
   */
  lemma StartHoldsStoredRequests(answer: nat -> Answer, t: Trace, stored: Option<Handle>, kind: NoSleepType)
    ensures var o := AcquireSpec(answer, t, stored, kind);
            && (o.result.Ok? ==>
                  && o.handle.Some?
                  && (kind == PreventUserIdleSystemSleep ==> o.handle.value.display.None?)
                  && o.trace.active == t.active + Requests(o.handle.value))
            && (o.result.Err? ==> o.handle == stored)
  {
    var system := CreateSpec(answer, t, SystemRequired);
    if system.result.Ok? {
      if kind == PreventUserIdleDisplaySleep {
        DisplayStartHolds(answer, t, stored);
      } else {
        var sys := Request(system.result.value, SystemRequired);
        assert Requests(Handle(system.result.value, None)) == multiset{sys};
      }
    }
  }

  lemma DisplayStartHolds(answer: nat -> Answer, t: Trace, stored: Option<Handle>)
    requires CreateSpec(answer, t, SystemRequired).result.Ok?
    ensures var o := AcquireSpec(answer, t, stored, PreventUserIdleDisplaySleep);
            o.handle.Some? && o.trace.active == t.active + Requests(o.handle.value)
  {
    var system := CreateSpec(answer, t, SystemRequired);
    var sys := Request(system.result.value, SystemRequired);
    var display := CreateSpec(answer, system.trace, DisplayRequired);
    var o := AcquireSpec(answer, t, stored, PreventUserIdleDisplaySleep);
    var h := Handle(system.result.value, display.result.ToOption());
    assert o.handle == Some(h) && o.trace == display.trace;
    if display.result.Ok? {
      var disp := Request(display.result.value, DisplayRequired);
      assert display.trace.active == t.active + Requests(h) by {
        assert system.trace.active == t.active + multiset{sys};
        assert display.trace.active == system.trace.active + multiset{disp};
        assert Requests(h) == multiset{sys} + multiset{disp};
      }
    } else {
      assert display.trace.active == t.active + Requests(h) by {
        assert system.trace.active == t.active + multiset{sys};
        assert display.trace.active == system.trace.active;
        assert Requests(h) == multiset{sys};
      }
    }
  }

  /** The requests a handle names. */
  function Requests(handle: Handle): (m: multiset<Request>)
    ensures Request(handle.system, SystemRequired) in m
    ensures |m| == if handle.display.Some? then 2 else 1
  {
    multiset{Request(handle.system, SystemRequired)}
      + if handle.display.Some? then multiset{Request(handle.display.value, DisplayRequired)} else multiset{}
  }

  /**
   * Stopping what a start stored undoes it: when every clear is granted, the stop succeeds and
   * the OS keeps active exactly what it did before the start set its requests.
   */
  lemma StopUndoesStart(answer: nat -> Answer, t: Trace, handle: Handle)
    requires answer(|t.calls|).Granted? && (handle.display.Some? ==> answer(|t.calls| + 1).Granted?)
    ensures var res := StopHandleSpec(answer, Trace(t.calls, t.active + Requests(handle)), handle);
            res.result == Ok(()) && res.trace.active == t.active
  {
    var system := Request(handle.system, SystemRequired);
    var t0 := Trace(t.calls, t.active + Requests(handle));
    var t1 := Trace(t.calls + [Clear(handle.system, SystemRequired)], t0.active - multiset{system});
    assert StopHandleSpec(answer, t0, handle) == ClearDisplaySpec(answer, t1, handle.display);
    if handle.display.Some? {
      var display := Request(handle.display.value, DisplayRequired);
      assert t1.active - multiset{display} == t.active by {
        assert Requests(handle) == multiset{system} + multiset{display};
      }
    } else {
      assert t1.active == t.active by {
        assert Requests(handle) == multiset{system};
      }
    }
  }

  /** The power request API: an oracle that answers the i-th call with `answer(i)`. */
  class PowerApi {
    const answer: nat -> Answer
    var calls: seq<PowerCall>
    ghost var active: multiset<Request>

    ghost function State(): Trace
      reads this
    {
      Trace(calls, active)
    }

    constructor (answer: nat -> Answer)
      ensures this.answer == answer && calls == [] && active == multiset{}
    {
      this.answer := answer;
      calls := [];
      active := multiset{};
    }

    /**
     * PowerCreateRequest with a simple reason string: the handle of a new request object, or an
     * error code. The reason is logged as the string itself, not as the wide string built for it.
     */
    method PowerCreateRequest(reason: string) returns (a: Answer)
      modifies this
      ensures (a, State()) == Call(answer, old(State()), Create(reason))
    {
      a := answer(|calls|);
      calls := calls + [Create(reason)];
    }

    /** PowerSetRequest: whether the OS now keeps the request type active on the handle. */
    method PowerSetRequest(handle: nat, option: RequestType) returns (ok: bool)
      modifies this
      ensures State() == Call(answer, old(State()), Set(handle, option)).1
      ensures ok <==> Call(answer, old(State()), Set(handle, option)).0.Granted?
    {
      ok := answer(|calls|).Granted?;
      if ok {
        active := active + multiset{Request(handle, option)};
      }
      calls := calls + [Set(handle, option)];
    }

    /** PowerClearRequest: whether the OS no longer keeps the request type active on the handle. */
    method PowerClearRequest(handle: nat, option: RequestType) returns (ok: bool)
      modifies this
      ensures State() == Call(answer, old(State()), Clear(handle, option)).1
      ensures ok <==> Call(answer, old(State()), Clear(handle, option)).0.Granted?
    {
      ok := answer(|calls|).Granted?;
      if ok {
        active := active - multiset{Request(handle, option)};
      }
      calls := calls + [Clear(handle, option)];
    }
  }

  /** create_power_request. */
  method CreatePowerRequest(api: PowerApi, option: RequestType) returns (r: Result<nat, Error>)
    modifies api
    ensures Outcome(r, api.State()) == CreateSpec(api.answer, old(api.State()), option)
  {
    var created := api.PowerCreateRequest(Reason);
    if created.Refused? {
      return Err(CouldNotCreatePowerRequest(created.code));
    }
    var ok := api.PowerSetRequest(created.handle, option);
    if ok {
      return Ok(created.handle);
    }
    return Err(PreventPowerSaveMode(option));
  }

  /** NoSleepHandle::stop. */
  method StopHandle(api: PowerApi, handle: Handle) returns (r: Result<(), Error>)
    modifies api
    ensures Outcome(r, api.State()) == StopHandleSpec(api.answer, old(api.State()), handle)
  {
    var ok := api.PowerClearRequest(handle.system, SystemRequired);
    if !ok {
      return Err(ClearPowerSaveMode(SystemRequired));
    }
    if handle.display.Some? {
      ok := api.PowerClearRequest(handle.display.value, DisplayRequired);
      if !ok {
        return Err(ClearPowerSaveMode(DisplayRequired));
      }
    }
    return Ok(());
  }

  /** The Windows controller: the power request API and at most one stored handle. */
  class NoSleep {
    const api: PowerApi
    var handle: Option<Handle>

    /** `new`: a controller holding no handle. */
    constructor (api: PowerApi)
      ensures this.api == api && handle == None
    {
      this.api := api;
      handle := None;
    }

    /** `start`. */
    method Start(kind: NoSleepType) returns (r: Result<(), Error>)
      modifies this, api
      ensures StartOutcome(r, handle, api.State()) == StartSpec(api.answer, old(api.State()), old(handle), kind)
    {
      if handle.Some? {
        r := StopHandle(api, handle.value);
        if r.Err? {
          return;
        }
      }
      var system :- CreatePowerRequest(api, SystemRequired);
      var display: Option<nat> := None;
      if kind == PreventUserIdleDisplaySleep {
        var attempt := CreatePowerRequest(api, DisplayRequired);
        display := attempt.ToOption();
      }
      handle := Some(Handle(system, display));
      r := Ok(());
    }
  }
}
